=== FILE: README.md ===
# Logging pipeline and lifecycle helpers of MentulaUtils, in Dafny

This project models the sequential logic of the asynchronous logging pipeline in
MentulaUtils (`DeJong.Utilities` / `Mentula.Utilities`) and proves properties of it.
It covers four parts:

- **The static `Log` class.**
  - `Message` appends a message to the staging list (`preBuffer`).
  - The drain loop inside `PipeRun` moves staged messages into the output queue (`msgbuffer`). Each step calls `GetNext`, which picks the earliest message of highest severity.
  - `LogException` turns an exception and its inner exceptions into a sequence of Fatal lines.
  - `Log.Dispose` and its `EnsureDisposeObj` guard stop the drain worker at most once.
- **`StopableThread`.** Its flag record (`running`, `stop`, `Disposed`, `Disposing`, cooldown, name), the caller-side transitions, and its `Run` loop as an event trace.
- **`ConsoleLogger`.**
  - `Update` pops messages until the `None` sentinel, sets each message's severity color, writes it (with dynamic header padding when enabled), flushes it, and restores the foreground color.
  - The `AutoUpdate` setter.
  - `Dispose(bool)`.
  - The console-signal handler `OnConsoleExit`.

Modules, leaves first:

- `Wrappers`: `Option` and `Result`.
- `LogMessages`: `Severity` (with its numeric rank) and `Message`.
- `LogPipeline` (`log_private.dfy`): `Message` (as `Submit`), `GetNext`, the drain pass, `PopLog`.
- `LogExceptions` (`log_exception.dfy`): `LogException`.
- `LogDispose` (`log_dispose.dfy`): `EnsureDisposeObj.Dispose` and `Log.Dispose`.
- `StoppableWorker` (`stoppable_worker.dfy`): `StopableThread`.
- `ConsoleLogger` (`console_logger.dfy`): `ConsoleLogger`.
- `Scenarios` (`scenarios.dfy`): the pipeline end to end.

How things are modelled:

- Threads and locks only wrap these pieces, so each piece is one deterministic step.
- A drain pass is modelled both as a method (`DrainPass`, mirroring the loop) and as the function `Drain`.
- The drained batch is characterised three ways: it is a permutation of the staging list, it is non-increasing in severity, and it keeps staging order among equal severities. It is also proved equal to an independent reference definition that lists messages severity band by severity band (`ByPriority`).
- The log messages that lifecycle methods write about themselves are abstract events: `WarnAlreadyDisposed`, `WarnAlreadyRunning`, `WarnNotRunning`, and the `Begin`/`End` marks of a run.
- Inputs from the environment are parameters: process and thread ids, the header and line formatter (`GetLogHeaderLine`/`GetLogLine`), the line separator, the current foreground color, and the schedule of the moments a running worker observes its stop request.

Where the documented behaviour and the code disagree, the model follows the code:

- `FatalColor` is documented as DarkRed but initialised to Red. The model keeps Red (`DefaultColorsAsWritten`); see Findings.
- `LogException` renders each `Data` entry the way the code does, as the entry's type name. The key-and-value rendering the listing evidently intends is the separate `LogExceptionIntended`; see Findings.

Within each severity the drain keeps staging order. This follows from the strict `>` comparison and `List.Remove`, and `DrainStable` proves it.

## Model

| member | source | states |
|---|---|---|
| LogMessages.Rank | Utilities/Utilities/Logging/Log_private.cs:67 | The numeric severity used for priority is at most 6 and is 0 exactly for the `None` sentinel |
| LogPipeline.Submit | Utilities/Utilities/Logging/Log_private.cs:28-34 | `Message` appends exactly one message with the given severity, ids, tag and text at the end of the staging list; the earlier entries and the output queue are unchanged |
| LogPipeline.ScanMax | Utilities/Utilities/Logging/Log_private.cs:64-68 | The scan with a strict `>` ends on the earliest index whose severity is maximal |
| LogPipeline.FirstMax | Utilities/Utilities/Logging/Log_private.cs:62-68 | The selected index is the first one of maximal severity |
| LogPipeline.FirstMaxUnique | Utilities/Utilities/Logging/Log_private.cs:62-67 | The first-found tie-break determines a single index |
| LogPipeline.RemoveAt | Utilities/Utilities/Logging/Log_private.cs:70 | Deleting one index keeps the elements before it in place and shifts the ones after it by one |
| LogPipeline.RemoveAtMultiset | Utilities/Utilities/Logging/Log_private.cs:70 | Deleting one index removes exactly that element from the multiset of messages |
| LogPipeline.RemoveFirst | Utilities/Utilities/Logging/Log_private.cs:70 | `List.Remove` drops one occurrence of the value when present, and nothing otherwise |
| LogPipeline.IndexOf | Utilities/Utilities/Logging/Log_private.cs:70 | The index `List.Remove` searches for holds the value, and no earlier element equals it |
| LogPipeline.RemoveAtTail | Utilities/Utilities/Logging/Log_private.cs:70 | Deleting an index after the first keeps the first element in front of the shortened rest |
| LogPipeline.RemoveFirstIsFirst | Utilities/Utilities/Logging/Log_private.cs:70 | `List.Remove` deletes exactly the first equal element, and the other elements keep their order |
| LogPipeline.RemoveFirstOfFirstMax | Utilities/Utilities/Logging/Log_private.cs:62-70 | Removing the selected value by equality removes exactly the selected index, because no equal value occurs earlier |
| LogPipeline.GetNext | Utilities/Utilities/Logging/Log_private.cs:60-72 | Needs a non-empty staging list; returns a message whose severity is at least every staged severity, namely the earliest such message, and leaves staging with that index deleted |
| LogPipeline.DrainPass | Utilities/Utilities/Logging/Log_private.cs:44-53 | One pass empties staging; the output is the old output followed by a batch that is a permutation of the old staging, non-increasing in severity and in staging order within each severity |
| LogPipeline.PassOutcome | Utilities/Utilities/Logging/Log_private.cs:46-51 | The queue left by a pass keeps its old prefix and appends a sorted, stable permutation of staging |
| LogPipeline.DrainBatchFacts | Utilities/Utilities/Logging/Log_private.cs:48-51 | The drained batch has the staging list's length and multiset, is non-increasing, and keeps the order per severity |
| LogPipeline.DrainPermutes | Utilities/Utilities/Logging/Log_private.cs:48-51 | No message is lost or duplicated by draining |
| LogPipeline.DrainBounded | Utilities/Utilities/Logging/Log_private.cs:48-51 | Draining never raises a severity above a bound that every staged message respects |
| LogPipeline.SortedCons | Utilities/Utilities/Logging/Log_private.cs:60-72 | A maximal message followed by a sorted rest is sorted |
| LogPipeline.DrainSorted | Utilities/Utilities/Logging/Log_private.cs:48-51 | The drained batch is in non-increasing severity order |
| LogPipeline.Drain | Utilities/Utilities/Logging/Log_private.cs:48-51 | No contract of its own: the batch `GetNext` produces repeatedly; its properties are `DrainPermutes`, `DrainSorted`, `DrainStable`, `DrainLength` and `DrainIsByPriority` |
| LogPipeline.DrainStable | Utilities/Utilities/Logging/Log_private.cs:67-70 | Messages of equal severity leave the drain in the order they were staged |
| LogPipeline.BandOfSeverity | Utilities/Utilities/Logging/Log_private.cs:67 | The band of a severity's rank holds only messages of that severity, so comparing bands compares per-severity order |
| LogPipeline.BandAppend | Utilities/Utilities/Logging/Log_private.cs:50 | One severity band of a concatenation is the concatenation of the bands |
| LogPipeline.BandAbsent | Utilities/Utilities/Logging/Log_private.cs:67 | A band with no members is empty |
| LogPipeline.BandAfterSelect | Utilities/Utilities/Logging/Log_private.cs:62-70 | Selecting the first maximal message takes the head of its band and touches no other band |
| LogPipeline.ByRankBelowSelect | Utilities/Utilities/Logging/Log_private.cs:62-70 | The bands below the selected severity are unchanged by the selection |
| LogPipeline.ByRankFromSelect | Utilities/Utilities/Logging/Log_private.cs:62-70 | Listed band by band from the selected severity down, the selected message comes first |
| LogPipeline.DrainIsByPriority | Utilities/Utilities/Logging/Log_private.cs:48-51 | The drained batch equals the reference order: all Fatal, then Error, Warning, Info, Debug, Verbose, each band in staging order |
| LogPipeline.DrainLength | Utilities/Utilities/Logging/Log_private.cs:48-51 | The batch has as many messages as staging held |
| LogPipeline.DrainBuffers | Utilities/Utilities/Logging/Log_private.cs:44-53 | A pass as a value: staging empties, the queue grows by the staging count, and its old prefix is kept |
| LogPipeline.PopLog | Utilities/Utilities/Logging/ConsoleLogger.cs:110 | An empty queue yields a message of severity `None` and stays empty; otherwise the front is taken and the rest remains |
| LogExceptions.EntryLine | Utilities/Utilities/Logging/Log_private.cs:85 | The corrected data line is the entry's key, then the separator ": ", then its value, and nothing else |
| LogExceptions.EntryLineShowsValue | Utilities/Utilities/Logging/Log_private.cs:85 | Two values under the same key give different corrected lines |
| LogExceptions.LevelTexts | Utilities/Utilities/Logging/Log_private.cs:76-93 | One exception contributes 3 lines, plus 1 + d for d > 0 data entries, plus 2 for a non-empty stack trace |
| LogExceptions.FatalLine | Utilities/Utilities/Logging/Log_private.cs:102-105 | No contract of its own: `Fatal_private`'s message; `Decompose` states that every line is such a message |
| LogExceptions.Decompose | Utilities/Utilities/Logging/Log_private.cs:74-105 | Every line is Fatal with the caller's tag, pid and tid, there are at least three, and they open with the "Exception", "Full name" and "Message" lines |
| LogExceptions.LogException | Utilities/Utilities/Logging/Log_private.cs:74-105 | No contract of its own: the decomposition with the code's data-entry rendering; its properties are those of `Decompose`, `DecomposeCount`, `InnerIsSuffix`, `StackTraceCloses`, `LogExceptionListsData` and `AsWrittenDropsData` |
| LogExceptions.LogExceptionIntended | Utilities/Utilities/Logging/Log_private.cs:80-87 | No contract of its own: the decomposition with key-and-value data lines; `LogExceptionShowsData` states its data listing |
| LogExceptions.Chain | Utilities/Utilities/Logging/Log_private.cs:95-99 | The chain of inner exceptions starts with the exception itself |
| LogExceptions.DecomposeCount | Utilities/Utilities/Logging/Log_private.cs:74-105 | The line count is the sum of each chained exception's own count plus one "Inner exception:" line per inner exception |
| LogExceptions.InnerIsSuffix | Utilities/Utilities/Logging/Log_private.cs:95-99 | With an inner exception, the lines end with "Inner exception:" followed by the inner exception's own decomposition |
| LogExceptions.StackTraceCloses | Utilities/Utilities/Logging/Log_private.cs:89-97 | A non-empty trace gives "Stacktrace:" and the trace as the exception's last own lines, right before any "Inner exception:" line |
| LogExceptions.DecomposeShowsData | Utilities/Utilities/Logging/Log_private.cs:80-87 | For any data-entry rendering, an exception with data logs "Additional information:" as line 4, right after the identifying lines, and then one line per entry in order |
| LogExceptions.LogExceptionListsData | Utilities/Utilities/Logging/Log_private.cs:80-87 | As the code stands, an exception with data logs "Additional information:" as line 4 and then one type-name line per entry |
| LogExceptions.LogExceptionShowsData | Utilities/Utilities/Logging/Log_private.cs:80-87 | With the corrected rendering and some data, line 4 is "Additional information:" and each entry's key and value follow in order |
| LogExceptions.AsWrittenDropsData | Utilities/Utilities/Logging/Log_private.cs:83-86 | As written, two exceptions that differ only in a data value log identical lines; the corrected rendering tells them apart |
| LogExceptions.EntryLineAsWritten | Utilities/Utilities/Logging/Log_private.cs:85 | A data entry prints as a non-empty line |
| LogExceptions.EntryLineAsWrittenIgnoresEntry | Utilities/Utilities/Logging/Log_private.cs:83-85 | As written, every data entry prints as the same line, whatever its key and value |
| LogExceptions.SubmitException | Utilities/Utilities/Logging/Log_private.cs:74-105 | Logging an exception appends exactly its decomposition as the code renders it, all Fatal lines carrying the caller's tag and ids; earlier entries and the output queue are unchanged |
| LogDispose.Apply | Utilities/Utilities/Logging/Log_dispose.cs:28-39 | Each atomic piece of a dispose call only raises flags, keeps `Disposed` implying `Disposing`, and stops the worker only when finishing a claimed disposal |
| LogDispose.Exec | Utilities/Utilities/Logging/Log_dispose.cs:26-40 | No contract of its own: the claims and finishes of several concurrent callers in some order; `AtMostOneStop` states what any such order does |
| LogDispose.AtMostOneStop | Utilities/Utilities/Logging/Log_dispose.cs:26-40 | Under any interleaving of callers, the drain worker is stopped at most once, never once `Disposed` is set, and flags never fall |
| LogDispose.Dispose | Utilities/Utilities/Logging/Log_dispose.cs:26-40 | A call on a claimed guard warns and changes nothing; a call on a fresh guard stops and waits once and ends with both flags set |
| LogDispose.DisposeExactlyOnce | Utilities/Utilities/Logging/Log_dispose.cs:26-40 | Any n >= 1 calls on a fresh guard stop the worker exactly once and emit exactly n effects |
| LogDispose.LaterDisposesOnlyWarn | Utilities/Utilities/Logging/Log_dispose.cs:30-34 | Once claimed, every further call only warns and changes no flag |
| LogDispose.LogDisposeCall | Utilities/Utilities/Logging/Log_dispose.cs:9-12 | Apart from the warning on a claimed guard, recorded as the `WarnAlreadyDisposed` effect, `Log.Dispose` leaves the buffers alone; it stops the worker exactly when the guard was unclaimed |
| LogDispose.LogDisposeDelegates | Utilities/Utilities/Logging/Log_dispose.cs:9-12 | Repeated `Log.Dispose` calls behave exactly as the same calls on the guard |
| LogDispose.LogDisposeExactlyOnce | Utilities/Utilities/Logging/Log_dispose.cs:9-12 | Any n >= 1 `Log.Dispose` calls on a new log stop its drain worker exactly once |
| StoppableWorker.SetTickCooldown | Utilities/Utilities/Threading/StopAbleThread.cs:21-29 | Values below 1 are rejected; any other value is stored exactly, so the cooldown stays at least 1; nothing else changes |
| StoppableWorker.New | Utilities/Utilities/Threading/StopAbleThread.cs:58-68 | Construction fails exactly when no tick is given; otherwise the cooldown is 10 and `nameSet` holds exactly when the name is non-empty |
| StoppableWorker.Start | Utilities/Utilities/Threading/StopAbleThread.cs:124-134 | Starting a running worker warns and changes nothing; otherwise the thread is launched, and re-created first unless it is still unstarted |
| StoppableWorker.Stop | Utilities/Utilities/Threading/StopAbleThread.cs:142-151 | Stopping a worker that is not running warns and leaves `stop` alone; otherwise it sets `stop` |
| StoppableWorker.Epilogue | Utilities/Utilities/Threading/StopAbleThread.cs:175-177 | The end of a run logs its exit, runs the terminate hook exactly when there is one, and clears `running` last, with no tick; there are exactly two events, or three with a terminate hook, so nothing else happens in between |
| StoppableWorker.StopWait | Utilities/Utilities/Threading/StopAbleThread.cs:156-160 | Returns only when `running` is false; a running worker gets `stop` set and `running` cleared, nothing else, after its run's epilogue; any other worker only warns |
| StoppableWorker.Dispose | Utilities/Utilities/Threading/StopAbleThread.cs:107-119 | The body runs only when neither flag is set and ends disposed and not disposing; the waiting form ends not running, and the other keeps `running` but requests the stop; only `running`, `stop` and the two disposal flags ever change, and a worker that is not running keeps `stop` |
| StoppableWorker.StartNew | Utilities/Utilities/Threading/StopAbleThread.cs:87-92 | Succeeds exactly when a tick is given, and then launches a fresh worker with cooldown 10 |
| StoppableWorker.PerformMonotone | Utilities/Utilities/Threading/StopAbleThread.cs:21-160 | No caller-side call clears `stop` or `Disposed` or breaks the cooldown bound |
| StoppableWorker.PerformAllMonotone | Utilities/Utilities/Threading/StopAbleThread.cs:21-160 | The same along any sequence of calls |
| StoppableWorker.DisposeNow | Utilities/Utilities/Threading/StopAbleThread.cs:98-101 | The public `Dispose()`: does nothing on a disposed or disposing worker; otherwise ends disposed and not disposing, requests the stop of a running worker and does not wait; nothing but `running`, `stop` and the disposal flags changes |
| StoppableWorker.Finalize | Utilities/Utilities/Threading/StopAbleThread.cs:73-77 | The finalizer: does nothing on a disposed or disposing worker; otherwise ends disposed, not disposing and not running, with `stop` set if it was running; nothing but `running`, `stop` and the disposal flags changes |
| StoppableWorker.DisposeOnce | Utilities/Utilities/Threading/StopAbleThread.cs:107-119 | A second disposal of either kind does nothing |
| StoppableWorker.Loop | Utilities/Utilities/Threading/StopAbleThread.cs:169-173 | The loop ticks only while no check has seen the stop request, and exits at the first check that does |
| StoppableWorker.Run | Utilities/Utilities/Threading/StopAbleThread.cs:163-178 | No contract of its own: one run as an event trace; `RunSplits`, `RunningDuringWork`, `EndOnlyAfterTerm` and `RunStopsTicking` state its shape |
| StoppableWorker.RunBody | Utilities/Utilities/Threading/StopAbleThread.cs:165-173 | A run begins by setting `running` and does not clear it while working |
| StoppableWorker.RunSplits | Utilities/Utilities/Threading/StopAbleThread.cs:163-178 | A run is its working part, followed by the epilogue exactly when the loop exited, and it leaves `running` set exactly when it has not exited |
| StoppableWorker.RunningDuringWork | Utilities/Utilities/Threading/StopAbleThread.cs:165-173 | The init hook and every tick happen while `running` is set |
| StoppableWorker.EndOnlyAfterTerm | Utilities/Utilities/Threading/StopAbleThread.cs:175-177 | `running` is cleared only as the last event, right after the terminate hook when there is one |
| StoppableWorker.RunStopsTicking | Utilities/Utilities/Threading/StopAbleThread.cs:169-173 | No tick starts once the stop request has been observed, and a run that starts with it set does not tick |
| StoppableWorker.RestartNeverTicks | Utilities/Utilities/Threading/StopAbleThread.cs:142-173 | Since `stop` is never cleared, a worker stopped and started again never ticks |
| ConsoleLogger.ColorOf | Utilities/Utilities/Logging/ConsoleLogger.cs:112-120 | Each of the six real severities selects its own configured color property, in the order Verbose, Debug, Info, Warning, Error, Fatal |
| ConsoleLogger.ColorTellsSeverity | Utilities/Utilities/Logging/ConsoleLogger.cs:112-120 | With pairwise distinct colors, the color a message is written in determines its severity |
| ConsoleLogger.AsWrittenErrorLooksFatal | Utilities/Utilities/Logging/ConsoleLogger.cs:35-39 | With the initial colors as written, Error and Fatal messages share a color |
| ConsoleLogger.DefaultColorsDistinct | Utilities/Utilities/Logging/ConsoleLogger.cs:16-39 | With the documented initial colors, all six severities have distinct colors |
| ConsoleLogger.PadRight | Utilities/Utilities/Logging/ConsoleLogger.cs:127 | Padding keeps the text as a prefix, adds only spaces, and reaches the requested width unless the text is longer |
| ConsoleLogger.PadHeader | Utilities/Utilities/Logging/ConsoleLogger.cs:124-127 | The new pad is the maximum of the old pad and the header length plus 2, and the written segment starts with the header and ": " and is exactly the new pad wide |
| ConsoleLogger.RenderOne | Utilities/Utilities/Logging/ConsoleLogger.cs:122-130 | Only writes happen. Without dynamic padding, one `WriteLine` of the formatted line and the pad is unchanged. With it, the pad grows as `PadHeader` says, the header segment is exactly that wide and starts with the header and ": ", and then the text and a line separator are written |
| ConsoleLogger.Pump | Utilities/Utilities/Logging/ConsoleLogger.cs:109-133 | The loop renders a prefix of the queue that holds no `None` message; it stops at the first `None`, which it discards, or at the end of the queue |
| ConsoleLogger.Update | Utilities/Utilities/Logging/ConsoleLogger.cs:105-136 | The last console operation restores the saved foreground color, and only `hdrPad` of the sink's state changes |
| ConsoleLogger.PumpWrites | Utilities/Utilities/Logging/ConsoleLogger.cs:110-133 | For each rendered message in pop order, the loop sets its color, writes it and then flushes it, which is the reference sequence `ExpectedOut`. It flushes exactly the rendered messages once each, writes each in its severity's color, and leaves the pad the reference computation gives |
| ConsoleLogger.UpdateWrites | Utilities/Utilities/Logging/ConsoleLogger.cs:105-136 | One update performs `ExpectedOut` for the rendered messages (color, writes, then flush, per message in pop order) and then restores the saved color. It flushes each rendered message once, paints each in its severity's color, and leaves `hdrPad` at the widest header seen plus 2 or where it was |
| ConsoleLogger.PadAfterIsMax | Utilities/Utilities/Logging/ConsoleLogger.cs:125 | The pad after a run of headers is the maximum of the starting pad and each header length plus 2 |
| ConsoleLogger.PaddingNeverShrinks | Utilities/Utilities/Logging/ConsoleLogger.cs:122-125 | Over any sequence of updates, `hdrPad` never decreases |
| ConsoleLogger.SetAutoUpdate | Utilities/Utilities/Logging/ConsoleLogger.cs:44-56 | Setting the current value does nothing; otherwise the flag takes the new value; switching on launches a new worker with cooldown 10 and no stop request; switching off stops the existing worker if there is one |
| ConsoleLogger.AutoUpdateIdempotent | Utilities/Utilities/Logging/ConsoleLogger.cs:49-54 | Setting `AutoUpdate` twice to the same value equals setting it once |
| ConsoleLogger.AutoUpdateOffTooEarly | Utilities/Utilities/Logging/ConsoleLogger.cs:49-54 | Switching on then straight off before the worker's run has begun only warns, so the worker keeps ticking at every check |
| ConsoleLogger.Dispose | Utilities/Utilities/Logging/ConsoleLogger.cs:148-165 | The body runs only when neither flag is set, ends disposed, not disposing and unregistered, removes the handler exactly when it was registered, disposes the worker with its public `Dispose()`, and disposes the global log exactly when asked; no other sink field changes |
| ConsoleLogger.DisposeSink | Utilities/Utilities/Logging/ConsoleLogger.cs:139-142 | The public `Dispose()` never touches the global log; on a live sink it ends disposed, not disposing, with the handler unregistered and the worker disposed, and otherwise it does nothing; no other sink field changes |
| ConsoleLogger.DisposeOnce | Utilities/Utilities/Logging/ConsoleLogger.cs:139-165 | A second disposal does nothing, and the public `Dispose()` never touches the global log |
| ConsoleLogger.OnConsoleExit | Utilities/Utilities/Logging/ConsoleLogger.cs:167-182 | The handler reports a signal handled exactly for Ctrl+C and close, after appending one Verbose message tagged "ConsoleLogger" with the caller's ids and a "Console signal " text; earlier staged messages and the output queue are unchanged |
| ConsoleLogger.FromCode | Utilities/Utilities/Logging/ConsoleLogger.cs:171-181 | A raw code becomes a named signal exactly when the console API names it (0, 1, 2, 5, 6) |
| ConsoleLogger.HandledCodes | Utilities/Utilities/Logging/ConsoleLogger.cs:171-181 | In raw signal codes, handled exactly for 0 and 2 |
| Scenarios.DrainOrdersBySeverity | Utilities/Utilities/Logging/Log_private.cs:60-72 | Info A, Fatal B and Debug C, staged in that order, drain as B, A, C |
| Scenarios.DrainKeepsReal | Utilities/Utilities/Logging/Log_private.cs:48-51 | Draining messages that are all real yields only real messages |
| Scenarios.NothingLost | Utilities/Utilities/Logging/ConsoleLogger.cs:105-136 | When no queued message is `None`, a drain pass followed by one update writes out the whole queue, in queue order, then the drained batch, with nothing lost or duplicated |

## Left out

- Threads and locks are not modelled: `lock`, `Thread.Sleep`, the busy outer `while (!stop)` of `PipeRun` and the polling loop of `StopWait`. Each drain pass and each transition is one atomic step. The only interleaving modelled is the dispose guard's claim/finish split (`LogDispose.Exec`).
- `Fatal_private` appends to the staging list without taking its lock. Without concurrency this is the same as `Message`, so the race is not modelled.
- The log's own `stop` flag is never set in the modelled files. `PipeRun`'s outer loop, and its setting and clearing of `running`, belong to the thread loop that is left out. The static constructor's thread start and handler registration are not modelled.
- `logThread` is declared as a `Thread`, yet `StopWait` is called on it. The model represents "stop the drain worker and wait for it" as the one abstract effect `StopDrainAndWait`.
- Console I/O and the buffer resizing in the `ConsoleLogger` constructor are not modelled. The foreground color is a value, and writes are recorded as operations.
- `GetLogHeaderLine`, `GetLogLine` and the `LogOutputType` setting are not modelled; the text formatting is a parameter (`Formatter`).
- `Log.PopLog`, `Log.FlushLog`, `Log.Verbose` and the `LogMessageType` enumeration are defined outside the modelled files. They are modelled by their described behaviour:
  - `PopLog` takes the queue front, or gives a `None` message when the queue is empty.
  - `FlushLog` is a recorded flush.
  - `Verbose` is a `Message` call.
  - `LogMessageType` is ranked None=0 up to Fatal=6.
- Native calls are not modelled: `SetConsoleCtrlHandler`, `AddConsoleHandle`, `RemoveConsoleHandle`, `GetCurrentProcessId`, `GetCurrentThreadId`. Ids are inputs, and handler registration is a flag.
- The `CtrlType` enumeration is not part of this model. Its codes are taken from the Windows console API (0, 1, 2, 5, 6); the `Signal` type keeps those codes out of `Other`, so each value has one representation.
- Finalizer timing and garbage collection are not modelled. The finalizers appear only as the calls they make (`StoppableWorker.Finalize`, and `ConsoleLogger.DisposeSink` for `Dispose(false)`).
- Reflection is not modelled: exception type names, `AssemblyQualifiedName` and the stack trace are plain string fields.
- Cyclic inner-exception chains are not modelled. A finite datatype cannot express them, and the source does not guard against them.
- A second `Start` before the first thread's `Run` has set `running` would launch a second thread. The race is not modelled; `Start` is one step.
- Exceptions thrown by caller-supplied code are not modelled: the worker's `init`, `tick` and `term` hooks, the header and line formatting, and the console writes. The model assumes that none of them throws. In the code, a throwing hook skips `running = false`, after which `Start` only warns and `StopWait` never returns. A throw inside `Update` leaves the popped message unflushed and the foreground color unrestored. So `StoppableWorker.Run` always ends with its epilogue, and `StoppableWorker.StopWait` always returns. Likewise, `ConsoleLogger.UpdateWrites` and `Scenarios.NothingLost` describe only the normal path.
- The worker's loop is modelled by the schedule of stop observations (`landed`), not by time. The cooldown's effect on timing is left out.
- ConsoleLogger.PadHeader: C# string lengths count UTF-16 code units, while the model counts characters. A header with a character outside the Basic Multilingual Plane, such as an emoji, gets a smaller `hdrPad` in the model than in the code.
- ConsoleLogger.PadRight: pads to a width in characters, where `String.PadRight` counts UTF-16 code units.
- ConsoleLogger.RenderOne: inherits the character-count widths of `PadHeader`.
- LogPipeline.PopLog: only states the queue discipline. The thread safety of the real queue is left out with the other locks.

## Findings

| source | as written | input that shows it | evidently intended | confidence | as-written member | corrected member |
|---|---|---|---|---|---|---|
| Utilities/Utilities/Logging/Log_private.cs:83-86 | Each entry of `Exception.Data` is logged with `ToString()`. Enumerating the dictionary yields boxed `DictionaryEntry` values, which print their type name | Two exceptions whose `Data` maps "user" to "alice" and to "bob" log identical lines | Log each entry's key and value | not executed; medium (relies on `DictionaryEntry` not overriding `ToString`) | LogExceptions.AsWrittenDropsData | LogExceptions.LogExceptionShowsData |
| Utilities/Utilities/Logging/ConsoleLogger.cs:37-39 | `FatalColor` starts as Red, the same color as `ErrorColor` | An Error message and a Fatal message under the initial colors are written in the same color | DarkRed, as the property's documentation says | not executed; high | ConsoleLogger.AsWrittenErrorLooksFatal | ConsoleLogger.DefaultColorsDistinct |

=== FILE: console_logger.dfy ===
/** `ConsoleLogger`: the sink that pops messages from the log's output queue and
    writes them to the console in per-severity colors, its auto-update worker, its
    disposal and its console-signal handler. */
module ConsoleLogger {
  import opened LogMessages
  import LogPipeline
  import LogDispose
  import StoppableWorker
  import Wrappers

  // ---------------------------------------------------------------------------
  // Colors
  // ---------------------------------------------------------------------------

  /** The sixteen console colors. */
  datatype Color =
    | Black | DarkBlue | DarkGreen | DarkCyan | DarkRed | DarkMagenta | DarkYellow | Gray
    | DarkGray | Blue | Green | Cyan | Red | Magenta | Yellow | White

  /** The six configurable colors, one per real severity. */
  datatype ColorTable = ColorTable(verbose: Color, debug: Color, info: Color, warning: Color, error: Color, fatal: Color)

  /** The initial color properties as the code stands: `FatalColor` starts as Red,
      the same as `ErrorColor`, although its documentation says DarkRed. */
  const DefaultColorsAsWritten := ColorTable(White, Blue, Green, Yellow, Red, Red)

  /** The initial color properties as documented. */
  const DefaultColors := ColorTable(White, Blue, Green, Yellow, Red, DarkRed)

  /** The severity switch of `Update`: the configured color of a real severity. */
  function ColorOf(t: ColorTable, sev: Severity): (c: Color)
    requires sev != None
    ensures c == [t.verbose, t.debug, t.info, t.warning, t.error, t.fatal][Rank(sev) - 1]
  {
    match sev
    case Verbose => t.verbose
    case Debug => t.debug
    case Info => t.info
    case Warning => t.warning
    case Error => t.error
    case Fatal => t.fatal
  }

  /** No two severities share a color. */
  predicate Distinct(t: ColorTable)
  {
    var cs := [t.verbose, t.debug, t.info, t.warning, t.error, t.fatal];
    forall i, j :: 0 <= i < j < |cs| ==> cs[i] != cs[j]
  }

  /** With distinct colors, the color a line is written in tells its severity. */
  lemma ColorTellsSeverity(t: ColorTable, a: Severity, b: Severity)
    requires Distinct(t) && a != None && b != None
    requires ColorOf(t, a) == ColorOf(t, b)
    ensures a == b
  {
  }

  /** As written, an Error line and a Fatal line look the same. */
  lemma AsWrittenErrorLooksFatal()
    ensures ColorOf(DefaultColorsAsWritten, Error) == ColorOf(DefaultColorsAsWritten, Fatal)
    ensures !Distinct(DefaultColorsAsWritten)
  {
    var t := DefaultColorsAsWritten;
    var cs := [t.verbose, t.debug, t.info, t.warning, t.error, t.fatal];
    assert cs[4] == cs[5];
  }

  /** The documented defaults give every severity its own color. */
  lemma DefaultColorsDistinct()
    ensures Distinct(DefaultColors)
  {
  }

  // ---------------------------------------------------------------------------
  // Console output
  // ---------------------------------------------------------------------------

  /** What `Update` does to the console and the log, in order. */
  datatype Out = SetColor(c: Color) | Write(s: string) | WriteLine(s: string) | Flush(m: Message)

  /** The text formatting the sink relies on: `GetLogHeaderLine` and `GetLogLine`
      for the sink's output type, and the platform's line separator. */
  datatype Formatter = Formatter(header: Message -> string, line: Message -> string, newLine: string)

  /** `n` spaces. */
  function Spaces(n: nat): (r: string)
    ensures |r| == n && forall i :: 0 <= i < n ==> r[i] == ' '
  {
    seq(n, _ => ' ')
  }

  /** `String.PadRight`: pad with spaces on the right up to `width` characters. */
  function PadRight(s: string, width: int): (r: string)
    ensures |r| == if width > |s| then width else |s|
    ensures r[..|s|] == s
    ensures forall i :: |s| <= i < |r| ==> r[i] == ' '
  {
    if width <= |s| then s else s + Spaces(width - |s|)
  }

  /** The dynamic padding step: the pad grows to fit `header` plus ": ", and the
      header segment is padded to exactly the new pad width. */
  function PadHeader(pad: int, header: string): (r: (int, string))
    ensures r.0 >= pad && r.0 >= |header| + 2
    ensures r.0 == pad || r.0 == |header| + 2
    ensures |r.1| == r.0
    ensures r.1[..|header| + 2] == header + ": "
  {
    var p := if |header| + 2 > pad then |header| + 2 else pad;
    (p, PadRight(header + ": ", p))
  }

  /** The console writes for one message, and the pad width after it. */
  function RenderOne(dynamic: bool, pad: int, f: Formatter, m: Message): (r: (int, seq<Out>))
    ensures forall i :: 0 <= i < |r.1| ==> r.1[i].Write? || r.1[i].WriteLine?
    ensures !dynamic ==> r.0 == pad && r.1 == [WriteLine(f.line(m))]
    ensures dynamic ==> && r.0 == PadHeader(pad, f.header(m)).0
                        && |r.1| == 2 && r.1[0].Write? && |r.1[0].s| == r.0
                        && r.1[0].s[..|f.header(m)| + 2] == f.header(m) + ": "
                        && r.1[1] == Write(m.text + f.newLine)
  {
    if dynamic then
      var (p, segment) := PadHeader(pad, f.header(m));
      (p, [Write(segment), Write(m.text + f.newLine)])
    else (pad, [WriteLine(f.line(m))])
  }

  /** The outcome of the `Update` loop: the pad width, the queue left behind, the
      operations performed and the messages rendered. */
  datatype Pumped = Pumped(pad: int, queue: seq<Message>, out: seq<Out>, rendered: seq<Message>)

  /** The loop of `Update`: pop until the popped message has severity `None`; set
      the message's color, write it, then flush it. */
  function Pump(t: ColorTable, f: Formatter, dynamic: bool, pad: int, q: seq<Message>): (r: Pumped)
    ensures |r.rendered| <= |q| && r.rendered == q[..|r.rendered|]
    ensures forall i :: 0 <= i < |r.rendered| ==> r.rendered[i].severity != None
    ensures |r.rendered| < |q| ==> q[|r.rendered|].severity == None && r.queue == q[|r.rendered| + 1..]
    ensures |r.rendered| == |q| ==> r.queue == []
    decreases |q|
  {
    var (msg, q1) := LogPipeline.PopLog(q);
    if msg.severity == None then Pumped(pad, q1, [], [])
    else
      var (pad1, writes) := RenderOne(dynamic, pad, f, msg);
      var rest := Pump(t, f, dynamic, pad1, q1);
      Pumped(rest.pad, rest.queue, [SetColor(ColorOf(t, msg.severity))] + writes + [Flush(msg)] + rest.out, [msg] + rest.rendered)
  }

  /** The sink's own state. */
  datatype Sink = Sink(
    autoUpd: bool,
    updWorker: Wrappers.Option<StoppableWorker.Worker>,
    dynamicPadding: bool,
    hdrPad: int,
    disposed: bool,
    disposing: bool,
    handlerRegistered: bool)

  /** The constructor: no worker, no padding yet, the console handler registered. */
  const NewSink := Sink(false, Wrappers.None, false, 0, false, false, true)

  /** The outcome of one `Update`. */
  datatype Updated = Updated(sink: Sink, queue: seq<Message>, out: seq<Out>, rendered: seq<Message>)

  /** `Update`: remember the foreground color, run the loop, restore the color. */
  function Update(s: Sink, t: ColorTable, f: Formatter, oldColor: Color, q: seq<Message>): (r: Updated)
    ensures |r.out| >= 1 && r.out[|r.out| - 1] == SetColor(oldColor)
    ensures r.sink.(hdrPad := s.hdrPad) == s
  {
    var p := Pump(t, f, s.dynamicPadding, s.hdrPad, q);
    Updated(s.(hdrPad := p.pad), p.queue, p.out + [SetColor(oldColor)], p.rendered)
  }

  // ---------------------------------------------------------------------------
  // What Update writes
  // ---------------------------------------------------------------------------

  /** The messages flushed, in order. */
  function Flushed(out: seq<Out>): seq<Message>
  {
    if |out| == 0 then []
    else (if out[0].Flush? then [out[0].m] else []) + Flushed(out[1..])
  }

  /** Each write paired with the foreground color in effect when it happens. */
  function Painted(out: seq<Out>, color: Color): seq<(Color, Out)>
  {
    if |out| == 0 then []
    else match out[0]
      case SetColor(c) => Painted(out[1..], c)
      case Flush(_) => Painted(out[1..], color)
      case _ => [(color, out[0])] + Painted(out[1..], color)
  }

  /** The foreground color once all of `out` has run. */
  function FinalColor(out: seq<Out>, color: Color): Color
  {
    if |out| == 0 then color
    else FinalColor(out[1..], if out[0].SetColor? then out[0].c else color)
  }

  /** The writes each message should get, paired with its severity's color: a
      reference definition that walks the rendered messages directly. */
  function ExpectedPaint(t: ColorTable, f: Formatter, dynamic: bool, pad: int, ms: seq<Message>): seq<(Color, Out)>
    requires forall i :: 0 <= i < |ms| ==> ms[i].severity != None
    decreases |ms|
  {
    if |ms| == 0 then []
    else
      var c := ColorOf(t, ms[0].severity);
      var (pad1, writes) := RenderOne(dynamic, pad, f, ms[0]);
      seq(|writes|, i requires 0 <= i < |writes| => (c, writes[i])) + ExpectedPaint(t, f, dynamic, pad1, ms[1..])
  }

  /** The operations each message should get, in order: its severity's color, its
      writes, then its flush. A reference definition that walks the rendered
      messages directly. */
  function ExpectedOut(t: ColorTable, f: Formatter, dynamic: bool, pad: int, ms: seq<Message>): seq<Out>
    requires forall i :: 0 <= i < |ms| ==> ms[i].severity != None
    decreases |ms|
  {
    if |ms| == 0 then []
    else
      var (pad1, writes) := RenderOne(dynamic, pad, f, ms[0]);
      [SetColor(ColorOf(t, ms[0].severity))] + writes + [Flush(ms[0])] + ExpectedOut(t, f, dynamic, pad1, ms[1..])
  }

  /** The pad width after rendering headers `hs` from width `pad`. */
  function PadAfter(pad: int, hs: seq<string>): int
    decreases |hs|
  {
    if |hs| == 0 then pad
    else PadAfter(if |hs[0]| + 2 > pad then |hs[0]| + 2 else pad, hs[1..])
  }

  /** The headers of some messages. */
  function Headers(f: Formatter, ms: seq<Message>): (hs: seq<string>)
    ensures |hs| == |ms| && forall i :: 0 <= i < |ms| ==> hs[i] == f.header(ms[i])
  {
    seq(|ms|, i requires 0 <= i < |ms| => f.header(ms[i]))
  }

  lemma {:induction false} FlushedAppend(a: seq<Out>, b: seq<Out>)
    ensures Flushed(a + b) == Flushed(a) + Flushed(b)
    decreases |a|
  {
    if |a| == 0 {
      assert a + b == b;
    } else {
      var h := if a[0].Flush? then [a[0].m] else [];
      assert (a + b)[0] == a[0];
      assert (a + b)[1..] == a[1..] + b;
      assert Flushed(a + b) == h + Flushed(a[1..] + b);
      FlushedAppend(a[1..], b);
      assert Flushed(a) == h + Flushed(a[1..]);
    }
  }

  lemma {:induction false} PaintedAppend(a: seq<Out>, b: seq<Out>, c: Color)
    ensures Painted(a + b, c) == Painted(a, c) + Painted(b, FinalColor(a, c))
    decreases |a|
  {
    if |a| == 0 {
      assert a + b == b;
    } else {
      assert (a + b)[1..] == a[1..] + b;
      var c1 := if a[0].SetColor? then a[0].c else c;
      PaintedAppend(a[1..], b, c1);
    }
  }

  lemma {:induction false} FinalColorAppend(a: seq<Out>, b: seq<Out>, c: Color)
    ensures FinalColor(a + b, c) == FinalColor(b, FinalColor(a, c))
    decreases |a|
  {
    if |a| == 0 {
      assert a + b == b;
    } else {
      assert (a + b)[1..] == a[1..] + b;
      FinalColorAppend(a[1..], b, if a[0].SetColor? then a[0].c else c);
    }
  }

  /** One message's operations: its color, its writes, its flush. */
  lemma BlockFacts(c: Color, writes: seq<Out>, m: Message, c0: Color)
    requires forall i :: 0 <= i < |writes| ==> writes[i].Write? || writes[i].WriteLine?
    ensures Flushed([SetColor(c)] + writes + [Flush(m)]) == [m]
    ensures Painted([SetColor(c)] + writes + [Flush(m)], c0) == seq(|writes|, i requires 0 <= i < |writes| => (c, writes[i]))
    ensures FinalColor([SetColor(c)] + writes + [Flush(m)], c0) == c
  {
    var block := [SetColor(c)] + writes + [Flush(m)];
    assert block[1..] == writes + [Flush(m)];
    WritesOnly(c, writes);
    FlushedAppend(writes, [Flush(m)]);
    PaintedAppend(writes, [Flush(m)], c);
    FinalColorAppend(writes, [Flush(m)], c);
    assert Painted([Flush(m)], c) == [];
    assert Flushed([Flush(m)]) == [m] + Flushed([]);
  }

  /** Plain writes are painted in the current color and flush nothing. */
  lemma {:induction false} WritesOnly(c: Color, writes: seq<Out>)
    requires forall i :: 0 <= i < |writes| ==> writes[i].Write? || writes[i].WriteLine?
    ensures Flushed(writes) == []
    ensures Painted(writes, c) == seq(|writes|, i requires 0 <= i < |writes| => (c, writes[i]))
    ensures FinalColor(writes, c) == c
    decreases |writes|
  {
    if |writes| > 0 {
      WritesOnly(c, writes[1..]);
    }
  }

  /** The loop performs, for each rendered message in pop order, its color change,
      its writes and then its flush; it flushes exactly the messages it rendered;
      it writes each in its severity's color; and it pads as `PadAfter` says. */
  lemma {:induction false} PumpWrites(t: ColorTable, f: Formatter, dynamic: bool, pad: int, q: seq<Message>, c0: Color)
    ensures var p := Pump(t, f, dynamic, pad, q);
            && p.out == ExpectedOut(t, f, dynamic, pad, p.rendered)
            && Flushed(p.out) == p.rendered
            && Painted(p.out, c0) == ExpectedPaint(t, f, dynamic, pad, p.rendered)
            && p.pad == (if dynamic then PadAfter(pad, Headers(f, p.rendered)) else pad)
    decreases |q|
  {
    var (msg, q1) := LogPipeline.PopLog(q);
    if msg.severity != None {
      var (pad1, writes) := RenderOne(dynamic, pad, f, msg);
      var c := ColorOf(t, msg.severity);
      var rest := Pump(t, f, dynamic, pad1, q1);
      var block := [SetColor(c)] + writes + [Flush(msg)];
      var p := Pump(t, f, dynamic, pad, q);
      assert p.out == block + rest.out;
      assert p.rendered == [msg] + rest.rendered;
      BlockFacts(c, writes, msg, c0);
      PumpWrites(t, f, dynamic, pad1, q1, c);
      FlushedAppend(block, rest.out);
      PaintedAppend(block, rest.out, c0);
      assert p.rendered[1..] == rest.rendered;
      assert Headers(f, p.rendered)[1..] == Headers(f, rest.rendered);
    }
  }

  /** One `Update`: for each message before the first `None`, in pop order, it sets
      the message's color, writes it and then flushes it; it paints each in its
      severity's color; it restores the foreground color; and with dynamic padding
      it leaves `hdrPad` at the widest header seen plus two, or where it was if
      that is wider. */
  lemma UpdateWrites(s: Sink, t: ColorTable, f: Formatter, oldColor: Color, q: seq<Message>)
    ensures var u := Update(s, t, f, oldColor, q);
            && u.out == ExpectedOut(t, f, s.dynamicPadding, s.hdrPad, u.rendered) + [SetColor(oldColor)]
            && Flushed(u.out) == u.rendered
            && Painted(u.out, oldColor) == ExpectedPaint(t, f, s.dynamicPadding, s.hdrPad, u.rendered)
            && FinalColor(u.out, oldColor) == oldColor
            && u.sink.hdrPad == (if s.dynamicPadding then PadAfter(s.hdrPad, Headers(f, u.rendered)) else s.hdrPad)
  {
    var p := Pump(t, f, s.dynamicPadding, s.hdrPad, q);
    PumpWrites(t, f, s.dynamicPadding, s.hdrPad, q, oldColor);
    FlushedAppend(p.out, [SetColor(oldColor)]);
    PaintedAppend(p.out, [SetColor(oldColor)], oldColor);
    FinalColorAppend(p.out, [SetColor(oldColor)], oldColor);
    assert Flushed([SetColor(oldColor)]) == [] + Flushed([]);
    assert Painted([SetColor(oldColor)], FinalColor(p.out, oldColor)) == Painted([], oldColor);
  }

  /** `PadAfter` is the maximum of the starting width and every header plus two. */
  lemma {:induction false} PadAfterIsMax(pad: int, hs: seq<string>)
    ensures PadAfter(pad, hs) >= pad
    ensures forall i :: 0 <= i < |hs| ==> PadAfter(pad, hs) >= |hs[i]| + 2
    ensures PadAfter(pad, hs) == pad || exists i :: 0 <= i < |hs| && PadAfter(pad, hs) == |hs[i]| + 2
    decreases |hs|
  {
    if |hs| > 0 {
      var p1 := if |hs[0]| + 2 > pad then |hs[0]| + 2 else pad;
      PadAfterIsMax(p1, hs[1..]);
      if PadAfter(pad, hs) != p1 {
        var i :| 0 <= i < |hs[1..]| && PadAfter(p1, hs[1..]) == |hs[1..][i]| + 2;
        assert PadAfter(pad, hs) == |hs[i + 1]| + 2;
      }
      forall i | 0 <= i < |hs|
        ensures PadAfter(pad, hs) >= |hs[i]| + 2
      {
        if i > 0 {
          assert hs[i] == hs[1..][i - 1];
        }
      }
    }
  }

  /** Over any sequence of updates, `hdrPad` never decreases. */
  lemma {:induction false} PaddingNeverShrinks(s: Sink, t: ColorTable, f: Formatter, c: Color, qs: seq<seq<Message>>)
    ensures UpdateAll(s, t, f, c, qs).hdrPad >= s.hdrPad
    decreases |qs|
  {
    if |qs| > 0 {
      var u := Update(s, t, f, c, qs[0]);
      UpdateWrites(s, t, f, c, qs[0]);
      PadAfterIsMax(s.hdrPad, Headers(f, u.rendered));
      PaddingNeverShrinks(u.sink, t, f, c, qs[1..]);
    }
  }

  /** The sink after one `Update` per queue snapshot in `qs`. */
  function UpdateAll(s: Sink, t: ColorTable, f: Formatter, c: Color, qs: seq<seq<Message>>): Sink
    decreases |qs|
  {
    if |qs| == 0 then s else UpdateAll(Update(s, t, f, c, qs[0]).sink, t, f, c, qs[1..])
  }

  // ---------------------------------------------------------------------------
  // AutoUpdate
  // ---------------------------------------------------------------------------

  /** The `AutoUpdate` setter. Setting the current value does nothing. Turning it on
      starts a new worker named "ConsoleLogger" that ticks `Update`; turning it off
      stops the existing worker, if any. */
  function SetAutoUpdate(s: Sink, v: bool): (r: (Sink, seq<StoppableWorker.Event>))
    ensures v == s.autoUpd ==> r == (s, [])
    ensures v != s.autoUpd ==> r.0.autoUpd == v
    ensures v != s.autoUpd ==> r.0.(autoUpd := s.autoUpd, updWorker := s.updWorker) == s
    ensures v && !s.autoUpd ==> r.0.updWorker.Some? && r.1 == [StoppableWorker.Launch]
    ensures v && !s.autoUpd ==> var w := r.0.updWorker.value;
              !w.running && !w.stop && w.cooldown == 10 && w.nameSet
    ensures !v && s.autoUpd ==> r.0.updWorker == (if s.updWorker.Some? then Wrappers.Some(StoppableWorker.Stop(s.updWorker.value).0) else Wrappers.None)
  {
    if v == s.autoUpd then (s, [])
    else if v then
      var started := StoppableWorker.StartNew(false, false, true, Wrappers.Some("ConsoleLogger"));
      var (w, e) := started.value;
      (s.(updWorker := Wrappers.Some(w), autoUpd := true), e)
    else if s.updWorker.Some? then
      var (w, e) := StoppableWorker.Stop(s.updWorker.value);
      (s.(updWorker := Wrappers.Some(w), autoUpd := false), e)
    else (s.(autoUpd := false), [])
  }

  /** Setting `AutoUpdate` twice to the same value is the same as setting it once. */
  lemma AutoUpdateIdempotent(s: Sink, v: bool)
    ensures var (s1, _) := SetAutoUpdate(s, v);
            SetAutoUpdate(s1, v) == (s1, [])
  {
  }

  /** Switching `AutoUpdate` on and straight back off, before the new worker's `Run`
      has set `running`, does not stop the worker: its `Stop` is ignored with a
      warning, and once it runs it ticks at every check. */
  lemma AutoUpdateOffTooEarly(s: Sink, checks: nat)
    requires !s.autoUpd
    ensures var s1 := SetAutoUpdate(s, true).0;
            var (s2, e) := SetAutoUpdate(s1, false);
            var w := s2.updWorker.value;
            && e == [StoppableWorker.WarnNotRunning] && !w.stop
            && StoppableWorker.TickCount(StoppableWorker.Run(w, seq(checks, _ => false)).trace) == checks
  {
    var s1 := SetAutoUpdate(s, true).0;
    var s2 := SetAutoUpdate(s1, false).0;
    var w := s2.updWorker.value;
    var landed := seq(checks, _ => false);
    StoppableWorker.RunStopsTicking(w, landed);
  }

  // ---------------------------------------------------------------------------
  // Disposal
  // ---------------------------------------------------------------------------

  /** What disposing the sink does outside its own flags. */
  datatype SinkEffect =
    | LogDisposed(effects: seq<LogDispose.Effect>)
    | HandlerRemoved
    | WorkerDisposed(events: seq<StoppableWorker.Event>)

  /** `Dispose(bool)`: only when neither flag is set, dispose the global log if
      asked to, remove the console handler, dispose the worker, and end disposed. */
  function Dispose(s: Sink, disposeLog: bool, log: LogDispose.LogState): (r: (Sink, LogDispose.LogState, seq<SinkEffect>))
    requires LogDispose.Consistent(log.guard)
    ensures s.disposed || s.disposing ==> r == (s, log, [])
    ensures !(s.disposed || s.disposing) ==> r.0.disposed && !r.0.disposing && !r.0.handlerRegistered
    ensures !(s.disposed || s.disposing) ==> r.0.updWorker.Some? == s.updWorker.Some?
    ensures !(s.disposed || s.disposing) && s.updWorker.Some? ==> r.0.updWorker.value.disposed || r.0.updWorker.value.disposing
    ensures !(s.disposed || s.disposing) && s.updWorker.Some? ==> r.0.updWorker.value == StoppableWorker.DisposeNow(s.updWorker.value).0
    ensures !(s.disposed || s.disposing) ==> (HandlerRemoved in r.2 <==> s.handlerRegistered)
    ensures r.0.(disposed := s.disposed, disposing := s.disposing, handlerRegistered := s.handlerRegistered, updWorker := s.updWorker) == s
    ensures !disposeLog ==> r.1 == log
    ensures disposeLog && !(s.disposed || s.disposing) ==> r.1 == LogDispose.LogDisposeCall(log).0
  {
    if !(s.disposed || s.disposing) then
      var (log1, e1) :=
        if disposeLog then
          var (l, e) := LogDispose.LogDisposeCall(log);
          (l, [LogDisposed(e)])
        else (log, []);
      var e2 := if s.handlerRegistered then [HandlerRemoved] else [];
      var (w, e3) :=
        if s.updWorker.Some? then
          var (w1, e) := StoppableWorker.DisposeNow(s.updWorker.value);
          (Wrappers.Some(w1), [WorkerDisposed(e)])
        else (Wrappers.None, []);
      (s.(handlerRegistered := false, updWorker := w, disposing := false, disposed := true), log1, e1 + e2 + e3)
    else (s, log, [])
  }

  /** The public `Dispose()` (and the finalizer): never disposes the global log. */
  function DisposeSink(s: Sink, log: LogDispose.LogState): (r: (Sink, LogDispose.LogState, seq<SinkEffect>))
    requires LogDispose.Consistent(log.guard)
    ensures r.1 == log
    ensures forall e :: e in r.2 ==> !e.LogDisposed?
    ensures s.disposed || s.disposing ==> r.0 == s && r.2 == []
    ensures !(s.disposed || s.disposing) ==> r.0.disposed && !r.0.disposing && !r.0.handlerRegistered
    ensures !(s.disposed || s.disposing) ==> r.0.updWorker.Some? == s.updWorker.Some?
    ensures !(s.disposed || s.disposing) && s.updWorker.Some? ==> r.0.updWorker.value == StoppableWorker.DisposeNow(s.updWorker.value).0
    ensures r.0.(disposed := s.disposed, disposing := s.disposing, handlerRegistered := s.handlerRegistered, updWorker := s.updWorker) == s
  {
    Dispose(s, false, log)
  }

  /** A second disposal of either kind does nothing, and the public one leaves the
      log alone. */
  lemma DisposeOnce(s: Sink, first: bool, second: bool, log: LogDispose.LogState)
    requires LogDispose.Consistent(log.guard)
    ensures var (s1, log1, _) := Dispose(s, first, log);
            && LogDispose.Consistent(log1.guard)
            && Dispose(s1, second, log1) == (s1, log1, [])
            && DisposeSink(s, log).1 == log
  {
  }

  // ---------------------------------------------------------------------------
  // Console signals
  // ---------------------------------------------------------------------------

  /** The console control signals; `Other` carries any other value the handler
      may receive. */
  datatype CtrlType = CtrlC | CtrlBreak | CtrlClose | CtrlLogoff | CtrlShutdown | Other(code: int)

  /** The codes the Windows console API gives a name. */
  predicate NamedCode(code: int)
  {
    code == 0 || code == 1 || code == 2 || code == 5 || code == 6
  }

  /** A signal value as the handler receives it: a named code is always its named
      constructor, so `Other` never carries one. */
  type Signal = sig: CtrlType | !(sig.Other? && NamedCode(sig.code)) witness CtrlC

  /** Signal codes as the Windows console API numbers them. */
  function FromCode(code: int): (sig: Signal)
    ensures sig.Other? <==> !NamedCode(code)
  {
    if code == 0 then CtrlC
    else if code == 1 then CtrlBreak
    else if code == 2 then CtrlClose
    else if code == 5 then CtrlLogoff
    else if code == 6 then CtrlShutdown
    else Other(code)
  }

  /** Decimal digits of a natural number. */
  function NatToString(n: nat): (r: string)
    ensures |r| >= 1
  {
    var d := ['0', '1', '2', '3', '4', '5', '6', '7', '8', '9'][n % 10];
    if n < 10 then [d] else NatToString(n / 10) + [d]
  }

  /** How the signal value prints. */
  function SignalName(sig: CtrlType): string
  {
    match sig
    case CtrlC => "CTRL_C_EVENT"
    case CtrlBreak => "CTRL_BREAK_EVENT"
    case CtrlClose => "CTRL_CLOSE_EVENT"
    case CtrlLogoff => "CTRL_LOGOFF_EVENT"
    case CtrlShutdown => "CTRL_SHUTDOWN_EVENT"
    case Other(c) => if c < 0 then "-" + NatToString(-c) else NatToString(c)
  }

  /** `OnConsoleExit`: log the signal as a Verbose message, then report it handled
      for Ctrl+C and window close only. */
  function OnConsoleExit(b: LogPipeline.Buffers, sig: Signal, pid: int, tid: int): (r: (bool, LogPipeline.Buffers))
    ensures r.0 <==> sig == CtrlC || sig == CtrlClose
    ensures r.1.output == b.output && |r.1.staging| == |b.staging| + 1
    ensures r.1.staging[..|b.staging|] == b.staging
    ensures var m := r.1.staging[|b.staging|];
            && m.severity == Verbose && m.tag == "ConsoleLogger" && m.pid == pid && m.tid == tid
            && |m.text| > 15 && m.text[..15] == "Console signal "
  {
    var b1 := LogPipeline.Submit(b, Verbose, pid, tid, "ConsoleLogger",
                                 "Console signal " + SignalName(sig) + " received, closing console.");
    match sig
    case CtrlC => (true, b1)
    case CtrlClose => (true, b1)
    case CtrlBreak => (false, b1)
    case CtrlLogoff => (false, b1)
    case CtrlShutdown => (false, b1)
    case Other(_) => (false, b1)
  }

  /** In terms of the raw signal codes: handled exactly for 0 (Ctrl+C) and 2 (close). */
  lemma HandledCodes(b: LogPipeline.Buffers, code: int, pid: int, tid: int)
    ensures OnConsoleExit(b, FromCode(code), pid, tid).0 <==> code == 0 || code == 2
  {
  }
}

=== FILE: log_dispose.dfy ===
/** The log's disposal guard (`EnsureDisposeObj`) and `Log.Dispose`, which only
    delegates to it. */
module LogDispose {
  import LogPipeline

  /** The guard's two flags. `disposing` is raised under the lock by the one caller
      that goes on to dispose; `disposed` is raised once that caller is done. */
  datatype Guard = Guard(disposed: bool, disposing: bool)

  /** A guard as constructed. */
  const FreshGuard := Guard(false, false)

  /** The observable effects of a dispose call. `StopDrainAndWait` stands for
      stopping the drain worker and waiting until it has exited. */
  datatype Effect = StopDrainAndWait | WarnAlreadyDisposed

  /** The flags never contradict the order in which they are raised. */
  predicate Consistent(g: Guard)
  {
    g.disposed ==> g.disposing
  }

  /** How many times the drain worker is stopped in a run of effects. */
  function Stops(effects: seq<Effect>): (n: nat)
    ensures n <= |effects|
    ensures n == 0 <==> StopDrainAndWait !in effects
  {
    if |effects| == 0 then 0
    else (if effects[0] == StopDrainAndWait then 1 else 0) + Stops(effects[1..])
  }

  lemma {:induction false} StopsAppend(a: seq<Effect>, b: seq<Effect>)
    ensures Stops(a + b) == Stops(a) + Stops(b)
    decreases |a|
  {
    if |a| == 0 {
      assert a + b == b;
    } else {
      assert (a + b)[1..] == a[1..] + b;
      StopsAppend(a[1..], b);
    }
  }

  // ---------------------------------------------------------------------------
  // One call, split at the lock
  // ---------------------------------------------------------------------------

  /** The two atomic pieces of `EnsureDisposeObj.Dispose`: the locked check that
      claims disposal, and the owner's stop-and-wait followed by `Disposed = true`. */
  datatype Step = Claim | Finish

  /** One step. A `Finish` with no claimed, unfinished disposal does nothing: only
      the caller whose `Claim` succeeded runs it. */
  function Apply(g: Guard, s: Step): (r: (Guard, seq<Effect>))
    ensures g.disposed ==> r.0.disposed
    ensures g.disposing ==> r.0.disposing
    ensures Consistent(g) ==> Consistent(r.0)
    ensures Stops(r.1) == (if s == Finish && g.disposing && !g.disposed then 1 else 0)
  {
    match s
    case Claim =>
      if g.disposed || g.disposing then (g, [WarnAlreadyDisposed])
      else (g.(disposing := true), [])
    case Finish =>
      if g.disposing && !g.disposed then (g.(disposed := true), [StopDrainAndWait])
      else (g, [])
  }

  /** Any interleaving of claims and finishes from several callers. */
  function Exec(g: Guard, steps: seq<Step>): (r: (Guard, seq<Effect>))
    decreases |steps|
  {
    if |steps| == 0 then (g, [])
    else
      var (g1, e1) := Apply(g, steps[0]);
      var (g2, e2) := Exec(g1, steps[1..]);
      (g2, e1 + e2)
  }

  /** Whatever the interleaving, the drain worker is stopped at most once, and
      only if the guard had not been claimed before; the flags only ever rise. */
  lemma {:induction false} AtMostOneStop(g: Guard, steps: seq<Step>)
    requires Consistent(g)
    ensures var r := Exec(g, steps);
            && Consistent(r.0)
            && (g.disposed ==> r.0.disposed)
            && (g.disposing ==> r.0.disposing)
            && Stops(r.1) <= (if g.disposed then 0 else 1)
            && (g.disposing && !g.disposed && Finish in steps ==> Stops(r.1) == 1)
    decreases |steps|
  {
    if |steps| > 0 {
      var (g1, e1) := Apply(g, steps[0]);
      AtMostOneStop(g1, steps[1..]);
      var (g2, e2) := Exec(g1, steps[1..]);
      StopsAppend(e1, e2);
      if g.disposing && !g.disposed && steps[0] != Finish {
        assert steps == [steps[0]] + steps[1..];
      }
    }
  }

  // ---------------------------------------------------------------------------
  // Sequential calls
  // ---------------------------------------------------------------------------

  /** `EnsureDisposeObj.Dispose` called with no other call in flight. */
  function Dispose(g: Guard): (r: (Guard, seq<Effect>))
    requires Consistent(g)
    ensures Consistent(r.0)
    ensures g.disposed || g.disposing ==> r.0 == g && r.1 == [WarnAlreadyDisposed]
    ensures !(g.disposed || g.disposing) ==> r.0 == Guard(true, true) && r.1 == [StopDrainAndWait]
  {
    var (g1, e1) := Apply(g, Claim);
    var claimed := g1.disposing && !g.disposing;
    if claimed then
      var (g2, e2) := Apply(g1, Finish);
      (g2, e1 + e2)
    else (g1, e1)
  }

  /** `n` dispose calls one after another. */
  function DisposeTimes(g: Guard, n: nat): (r: (Guard, seq<Effect>))
    requires Consistent(g)
    decreases n
  {
    if n == 0 then (g, [])
    else
      var (g1, e1) := Dispose(g);
      var (g2, e2) := DisposeTimes(g1, n - 1);
      (g2, e1 + e2)
  }

  /** Any n >= 1 dispose calls on a fresh guard stop the drain worker exactly once,
      warn on every call but the first, and leave the guard disposed. */
  lemma {:induction false} DisposeExactlyOnce(n: nat)
    requires n >= 1
    ensures var r := DisposeTimes(FreshGuard, n);
            Stops(r.1) == 1 && |r.1| == n && r.0 == Guard(true, true)
  {
    var (g1, e1) := Dispose(FreshGuard);
    LaterDisposesOnlyWarn(g1, n - 1);
    StopsAppend(e1, DisposeTimes(g1, n - 1).1);
  }

  /** Once claimed, every further call only warns. */
  lemma {:induction false} LaterDisposesOnlyWarn(g: Guard, n: nat)
    requires Consistent(g) && (g.disposed || g.disposing)
    ensures var r := DisposeTimes(g, n);
            r.0 == g && |r.1| == n && Stops(r.1) == 0
            && forall i :: 0 <= i < n ==> r.1[i] == WarnAlreadyDisposed
    decreases n
  {
    if n > 0 {
      LaterDisposesOnlyWarn(g, n - 1);
      var e := DisposeTimes(g, n - 1).1;
      StopsAppend([WarnAlreadyDisposed], e);
    }
  }

  // ---------------------------------------------------------------------------
  // Log.Dispose
  // ---------------------------------------------------------------------------

  /** The parts of the static log that disposal touches. */
  datatype LogState = LogState(buffers: LogPipeline.Buffers, guard: Guard)

  /** A log as its static constructor leaves it: empty buffers, a fresh guard. */
  const InitialLog := LogState(LogPipeline.Empty, FreshGuard)

  /** `Log.Dispose`: hand the call to the single guard object; nothing else changes. */
  function LogDisposeCall(l: LogState): (r: (LogState, seq<Effect>))
    requires Consistent(l.guard)
    ensures r.0.buffers == l.buffers
    ensures Consistent(r.0.guard)
    ensures Stops(r.1) == (if l.guard.disposed || l.guard.disposing then 0 else 1)
  {
    var (g, e) := Dispose(l.guard);
    (l.(guard := g), e)
  }

  /** `n` calls of `Log.Dispose`. */
  function LogDisposeTimes(l: LogState, n: nat): (r: (LogState, seq<Effect>))
    requires Consistent(l.guard)
    decreases n
  {
    if n == 0 then (l, [])
    else
      var (l1, e1) := LogDisposeCall(l);
      var (l2, e2) := LogDisposeTimes(l1, n - 1);
      (l2, e1 + e2)
  }

  /** Repeated `Log.Dispose` calls inherit the guard's behaviour: they act exactly
      like the same calls on the guard and never touch the buffers. */
  lemma {:induction false} LogDisposeDelegates(l: LogState, n: nat)
    requires Consistent(l.guard)
    ensures LogDisposeTimes(l, n).0 == l.(guard := DisposeTimes(l.guard, n).0)
    ensures LogDisposeTimes(l, n).1 == DisposeTimes(l.guard, n).1
    decreases n
  {
    if n > 0 {
      LogDisposeDelegates(LogDisposeCall(l).0, n - 1);
    }
  }

  /** Disposing the log any number n >= 1 of times stops its drain worker exactly once. */
  lemma LogDisposeExactlyOnce(n: nat)
    requires n >= 1
    ensures Stops(LogDisposeTimes(InitialLog, n).1) == 1
    ensures LogDisposeTimes(InitialLog, n).0.buffers == InitialLog.buffers
  {
    LogDisposeDelegates(InitialLog, n);
    DisposeExactlyOnce(n);
  }
}

=== FILE: log_exception.dfy ===
/** `LogException`: how a caught exception becomes a fixed sequence of Fatal lines
    in the staging list. */
module LogExceptions {
  import opened LogMessages
  import LogPipeline
  import Wrappers

  /** One key/value pair of an exception's `Data` dictionary. */
  datatype DataEntry = DataEntry(key: string, value: string)

  /** The parts of an exception that get logged. `inner` is the causing exception;
      being a finite datatype, an inner chain here cannot loop back on itself. */
  datatype Exn = Exn(
    typeName: string,
    qualifiedName: string,
    message: string,
    data: seq<DataEntry>,
    stackTrace: string,
    inner: Wrappers.Option<Exn>)

  // ---------------------------------------------------------------------------
  // Rendering one data entry
  // ---------------------------------------------------------------------------

  /** The line the code writes for a data entry: enumerating `Exception.Data` yields
      boxed `DictionaryEntry` values, and `DictionaryEntry` does not override
      `ToString()`, so every entry prints as its type name. */
  function EntryLineAsWritten(d: DataEntry): (r: string)
    ensures |r| > 0
  {
    "System.Collections.DictionaryEntry"
  }

  /** As written, the line does not depend on the entry at all. */
  lemma EntryLineAsWrittenIgnoresEntry(d1: DataEntry, d2: DataEntry)
    ensures EntryLineAsWritten(d1) == EntryLineAsWritten(d2)
  {
  }

  /** The line evidently meant for a data entry: its key, then its value. */
  function EntryLine(d: DataEntry): (r: string)
    ensures |r| == |d.key| + 2 + |d.value|
    ensures r[..|d.key|] == d.key
    ensures r[|d.key|..|d.key| + 2] == ": "
    ensures r[|d.key| + 2..] == d.value
  {
    d.key + ": " + d.value
  }

  /** The corrected line tells apart two values stored under the same key. */
  lemma EntryLineShowsValue(k: string, v1: string, v2: string)
    requires EntryLine(DataEntry(k, v1)) == EntryLine(DataEntry(k, v2))
    ensures v1 == v2
  {
    var l := EntryLine(DataEntry(k, v1));
    assert v1 == l[|k| + 2..];
  }

  // ---------------------------------------------------------------------------
  // The decomposition
  // ---------------------------------------------------------------------------

  /** A Fatal message carrying the caller's tag and ids (`Fatal_private`). */
  function FatalLine(tag: string, pid: int, tid: int, text: string): Message
  {
    Message(Fatal, pid, tid, tag, text)
  }

  /** The texts logged for one exception, without its inner exception: three
      identifying lines, then the data listing if there is data, then the stack
      trace if there is one. */
  function LevelTexts(render: DataEntry -> string, e: Exn): (r: seq<string>)
    ensures |r| == LevelCount(e)
  {
    ["Exception: " + e.typeName, "Full name: " + e.qualifiedName, "Message: " + e.message]
    + (if |e.data| > 0
       then ["Additional information:"] + seq(|e.data|, i requires 0 <= i < |e.data| => render(e.data[i]))
       else [])
    + (if e.stackTrace != "" then ["Stacktrace:", e.stackTrace] else [])
  }

  /** How many lines one exception contributes, not counting its inner exception. */
  function LevelCount(e: Exn): nat
  {
    3 + (if |e.data| > 0 then |e.data| + 1 else 0) + (if e.stackTrace != "" then 2 else 0)
  }

  /** `LogException` with the data-entry rendering as a parameter. */
  function Decompose(render: DataEntry -> string, tag: string, pid: int, tid: int, e: Exn): (r: seq<Message>)
    ensures |r| >= 3
    ensures forall i :: 0 <= i < |r| ==> r[i].severity == Fatal && r[i].tag == tag && r[i].pid == pid && r[i].tid == tid
    ensures r[0].text == "Exception: " + e.typeName
    ensures r[1].text == "Full name: " + e.qualifiedName
    ensures r[2].text == "Message: " + e.message
    decreases e
  {
    var level := LevelTexts(render, e);
    var head := seq(|level|, i requires 0 <= i < |level| => FatalLine(tag, pid, tid, level[i]));
    match e.inner
    case None => head
    case Some(i) => head + [FatalLine(tag, pid, tid, "Inner exception:")] + Decompose(render, tag, pid, tid, i)
  }

  /** `LogException` as the code stands: every data entry prints as the entry's
      type name. */
  function LogException(tag: string, pid: int, tid: int, e: Exn): seq<Message>
  {
    Decompose(EntryLineAsWritten, tag, pid, tid, e)
  }

  /** `LogException` as evidently intended: data entries rendered as key and value. */
  function LogExceptionIntended(tag: string, pid: int, tid: int, e: Exn): seq<Message>
  {
    Decompose(EntryLine, tag, pid, tid, e)
  }

  /** The exception and its chain of inner exceptions, outermost first. */
  function Chain(e: Exn): (c: seq<Exn>)
    ensures |c| >= 1 && c[0] == e
    decreases e
  {
    match e.inner
    case None => [e]
    case Some(i) => [e] + Chain(i)
  }

  /** Total of the per-exception line counts over a chain. */
  function SumLevels(c: seq<Exn>): nat
  {
    if |c| == 0 then 0 else LevelCount(c[0]) + SumLevels(c[1..])
  }

  /** The number of lines: every exception of the chain contributes its own lines,
      and each of the |chain| - 1 inner exceptions is announced by one more line. */
  lemma {:induction false} DecomposeCount(render: DataEntry -> string, tag: string, pid: int, tid: int, e: Exn)
    ensures |Decompose(render, tag, pid, tid, e)| == SumLevels(Chain(e)) + |Chain(e)| - 1
    decreases e
  {
    match e.inner
    case None =>
      assert Chain(e) == [e];
      assert SumLevels(Chain(e)) == LevelCount(e) + SumLevels([]);
    case Some(i) =>
      DecomposeCount(render, tag, pid, tid, i);
      assert Chain(e)[1..] == Chain(i);
  }

  /** The inner exception's own decomposition closes the outer one, announced by
      an "Inner exception:" line. */
  lemma InnerIsSuffix(render: DataEntry -> string, tag: string, pid: int, tid: int, e: Exn)
    requires e.inner.Some?
    ensures var r := Decompose(render, tag, pid, tid, e);
            var ri := Decompose(render, tag, pid, tid, e.inner.value);
            |r| > |ri| && r[|r| - |ri|..] == ri && r[|r| - |ri| - 1].text == "Inner exception:"
  {
  }

  /** Whatever the entry rendering, an exception with data logs the
      "Additional information:" line right after the three identifying lines,
      followed by one line per entry in order. */
  lemma DecomposeShowsData(render: DataEntry -> string, tag: string, pid: int, tid: int, e: Exn, i: nat)
    requires i < |e.data|
    ensures var r := Decompose(render, tag, pid, tid, e);
            |r| > 4 + i && r[3].text == "Additional information:" && r[4 + i].text == render(e.data[i])
  {
    var level := LevelTexts(render, e);
    assert level[3] == "Additional information:";
    assert level[4 + i] == render(e.data[i]);
  }

  /** With the corrected rendering, the data listing shows every entry's key and
      value, right after the "Additional information:" line. */
  lemma LogExceptionShowsData(tag: string, pid: int, tid: int, e: Exn, i: nat)
    requires i < |e.data|
    ensures var r := LogExceptionIntended(tag, pid, tid, e);
            |r| > 4 + i && r[3].text == "Additional information:" && r[4 + i].text == EntryLine(e.data[i])
  {
    DecomposeShowsData(EntryLine, tag, pid, tid, e, i);
  }

  /** As written, the data listing is there, one type-name line per entry. */
  lemma LogExceptionListsData(tag: string, pid: int, tid: int, e: Exn, i: nat)
    requires i < |e.data|
    ensures var r := LogException(tag, pid, tid, e);
            |r| > 4 + i && r[3].text == "Additional information:"
            && r[4 + i].text == "System.Collections.DictionaryEntry"
  {
    DecomposeShowsData(EntryLineAsWritten, tag, pid, tid, e, i);
  }

  /** A non-empty stack trace closes the exception's own lines, announced by a
      "Stacktrace:" line, before any inner exception. */
  lemma StackTraceCloses(render: DataEntry -> string, tag: string, pid: int, tid: int, e: Exn)
    requires e.stackTrace != ""
    ensures var r := Decompose(render, tag, pid, tid, e);
            var n := LevelCount(e);
            |r| >= n && r[n - 2].text == "Stacktrace:" && r[n - 1].text == e.stackTrace
            && (e.inner.Some? ==> r[n].text == "Inner exception:")
  {
    var level := LevelTexts(render, e);
    var n := LevelCount(e);
    assert level[n - 2] == "Stacktrace:" && level[n - 1] == e.stackTrace;
  }

  /** As written, two exceptions that differ only in a data value log the same lines. */
  lemma AsWrittenDropsData()
    ensures var e1 := Exn("KeyNotFoundException", "K", "m", [DataEntry("user", "alice")], "", Wrappers.None);
            var e2 := Exn("KeyNotFoundException", "K", "m", [DataEntry("user", "bob")], "", Wrappers.None);
            e1 != e2 && LogException("T", 1, 2, e1) == LogException("T", 1, 2, e2)
            && LogExceptionIntended("T", 1, 2, e1) != LogExceptionIntended("T", 1, 2, e2)
  {
    var e1 := Exn("KeyNotFoundException", "K", "m", [DataEntry("user", "alice")], "", Wrappers.None);
    var e2 := Exn("KeyNotFoundException", "K", "m", [DataEntry("user", "bob")], "", Wrappers.None);
    assert e1.data != e2.data;
    EntryLineAsWrittenIgnoresEntry(e1.data[0], e2.data[0]);
    assert seq(|e1.data|, i requires 0 <= i < |e1.data| => EntryLineAsWritten(e1.data[i]))
        == seq(|e2.data|, i requires 0 <= i < |e2.data| => EntryLineAsWritten(e2.data[i]));
    assert LevelTexts(EntryLineAsWritten, e1) == LevelTexts(EntryLineAsWritten, e2);
    LogExceptionShowsData("T", 1, 2, e1, 0);
    LogExceptionShowsData("T", 1, 2, e2, 0);
    assert EntryLine(e1.data[0]) != EntryLine(e2.data[0]) by {
      if EntryLine(e1.data[0]) == EntryLine(e2.data[0]) {
        EntryLineShowsValue("user", "alice", "bob");
      }
    }
  }

  /** `Exception(tag, e)`: append the decomposition, as the code renders it, to the
      staging list. */
  function SubmitException(b: LogPipeline.Buffers, tag: string, pid: int, tid: int, e: Exn): (r: LogPipeline.Buffers)
    ensures |r.staging| > |b.staging|
    ensures r.staging[..|b.staging|] == b.staging
    ensures forall i :: |b.staging| <= i < |r.staging| ==> r.staging[i] == FatalLine(tag, pid, tid, r.staging[i].text)
    ensures r.staging[|b.staging|..] == LogException(tag, pid, tid, e)
    ensures r.output == b.output
  {
    var lines := LogException(tag, pid, tid, e);
    var r := b.(staging := b.staging + lines);
    assert forall i :: |b.staging| <= i < |r.staging| ==> r.staging[i] == lines[i - |b.staging|];
    r
  }
}

=== FILE: log_message.dfy ===
/** Severities and the immutable log message record of the logging pipeline. */
module LogMessages {

  /** The message types in ascending priority. `None` is the sentinel that
      `PopLog` returns when no message is available; real messages never carry it. */
  datatype Severity = None | Verbose | Debug | Info | Warning | Error | Fatal

  /** The integer value of a severity, as obtained by the `(int)` casts that
      drive priority selection. */
  function Rank(s: Severity): (r: nat)
    ensures r <= 6
    ensures r == 0 <==> s == None
  {
    match s
    case None => 0
    case Verbose => 1
    case Debug => 2
    case Info => 3
    case Warning => 4
    case Error => 5
    case Fatal => 6
  }

  /** Distinct severities have distinct ranks, so comparing ranks is comparing severities. */
  lemma RankInjective(a: Severity, b: Severity)
    ensures Rank(a) == Rank(b) ==> a == b
  {
  }

  /** One log line: severity, the submitting process and thread, a tag and the text. */
  datatype Message = Message(severity: Severity, pid: int, tid: int, tag: string, text: string)

  /** The priority of a message. */
  function Prio(m: Message): nat
  {
    Rank(m.severity)
  }
}

=== FILE: log_private.dfy ===
/** The staging list and output queue of the log, message submission and the
    priority drain that moves staged messages to the output queue. */
module LogPipeline {
  import opened LogMessages

  /** The log's two buffers: the staging list that producers append to, and the
      output queue that consumers pop from (its front is index 0). */
  datatype Buffers = Buffers(staging: seq<Message>, output: seq<Message>)

  /** A freshly initialised log: both buffers empty. */
  const Empty := Buffers([], [])

  // ---------------------------------------------------------------------------
  // Submission
  // ---------------------------------------------------------------------------

  /** `Message`: append one message, stamped with the caller's process and thread
      id, to the end of the staging list. */
  function Submit(b: Buffers, sev: Severity, pid: int, tid: int, tag: string, text: string): (r: Buffers)
    ensures |r.staging| == |b.staging| + 1
    ensures r.staging[..|b.staging|] == b.staging
    ensures r.staging[|b.staging|] == Message(sev, pid, tid, tag, text)
    ensures multiset(r.staging) == multiset(b.staging) + multiset{Message(sev, pid, tid, tag, text)}
    ensures r.output == b.output
  {
    b.(staging := b.staging + [Message(sev, pid, tid, tag, text)])
  }

  // ---------------------------------------------------------------------------
  // Selection of the next message
  // ---------------------------------------------------------------------------

  /** Index `k` holds a message of maximal severity and no earlier message has
      that severity: the message the strict `>` scan settles on. */
  predicate IsFirstMax(s: seq<Message>, k: int)
  {
    && 0 <= k < |s|
    && (forall j :: 0 <= j < |s| ==> Prio(s[j]) <= Prio(s[k]))
    && (forall j :: 0 <= j < k ==> Prio(s[j]) < Prio(s[k]))
  }

  /** There is only one first maximum. */
  lemma FirstMaxUnique(s: seq<Message>, k1: int, k2: int)
    requires IsFirstMax(s, k1) && IsFirstMax(s, k2)
    ensures k1 == k2
  {
    assert Prio(s[k1]) <= Prio(s[k2]) && Prio(s[k2]) <= Prio(s[k1]);
  }

  /** The linear scan of `GetNext` from position `i`, with `best` the index of the
      message currently held as the result. */
  function ScanMax(s: seq<Message>, i: nat, best: nat): (k: nat)
    requires best <= i <= |s| && best < |s|
    requires forall j :: 0 <= j < i ==> Prio(s[j]) <= Prio(s[best])
    requires forall j :: 0 <= j < best ==> Prio(s[j]) < Prio(s[best])
    ensures IsFirstMax(s, k)
    decreases |s| - i
  {
    if i == |s| then best
    else if Prio(s[i]) > Prio(s[best]) then ScanMax(s, i + 1, i)
    else ScanMax(s, i + 1, best)
  }

  /** The index of the message `GetNext` selects. */
  function FirstMax(s: seq<Message>): (k: nat)
    requires |s| > 0
    ensures IsFirstMax(s, k)
  {
    ScanMax(s, 0, 0)
  }

  /** `s` with the element at index `k` deleted; the others keep their order. */
  function RemoveAt(s: seq<Message>, k: nat): (r: seq<Message>)
    requires k < |s|
    ensures |r| == |s| - 1
    ensures forall j :: 0 <= j < k ==> r[j] == s[j]
    ensures forall j :: k <= j < |r| ==> r[j] == s[j + 1]
  {
    s[..k] + s[k + 1..]
  }

  /** Deleting one index loses exactly that element. */
  lemma RemoveAtMultiset(s: seq<Message>, k: nat)
    requires k < |s|
    ensures multiset(RemoveAt(s, k)) + multiset{s[k]} == multiset(s)
  {
    assert s == s[..k] + [s[k]] + s[k + 1..];
  }

  /** The index of the first element equal to `x`. */
  function IndexOf(s: seq<Message>, x: Message): (k: nat)
    requires x in s
    ensures k < |s| && s[k] == x
    ensures forall i :: 0 <= i < k ==> s[i] != x
  {
    if s[0] == x then 0
    else
      assert x in s[1..];
      1 + IndexOf(s[1..], x)
  }

  /** `List.Remove`: delete the first element equal to `x`, if there is one. */
  function RemoveFirst(s: seq<Message>, x: Message): (r: seq<Message>)
    ensures x !in s ==> r == s
    ensures x in s ==> |r| == |s| - 1
    ensures multiset(r) == multiset(s) - multiset{x}
  {
    if |s| == 0 then []
    else
      assert s == [s[0]] + s[1..];
      if s[0] == x then s[1..]
      else [s[0]] + RemoveFirst(s[1..], x)
  }

  /** Deleting a later index keeps the head in front. */
  lemma RemoveAtTail(s: seq<Message>, k: nat)
    requires 0 < k < |s|
    ensures RemoveAt(s, k) == [s[0]] + RemoveAt(s[1..], k - 1)
  {
    assert s[..k] == [s[0]] + s[1..][..k - 1];
    assert s[k + 1..] == s[1..][k..];
  }

  /** It is the first occurrence that goes, and the others keep their order. */
  lemma {:induction false} RemoveFirstIsFirst(s: seq<Message>, x: Message)
    ensures x in s ==> RemoveFirst(s, x) == RemoveAt(s, IndexOf(s, x))
    decreases |s|
  {
    if x in s && s[0] != x {
      var t := s[1..];
      assert x in t by { assert s == [s[0]] + t; }
      RemoveFirstIsFirst(t, x);
      assert IndexOf(s, x) == IndexOf(t, x) + 1;
      RemoveAtTail(s, IndexOf(s, x));
    }
  }

  /** Removing the selected message by value deletes exactly its index: an equal
      message before it would have the same severity, which the first maximum excludes. */
  lemma RemoveFirstOfFirstMax(s: seq<Message>, k: nat)
    requires IsFirstMax(s, k)
    ensures RemoveFirst(s, s[k]) == RemoveAt(s, k)
  {
    var j := IndexOf(s, s[k]);
    assert Prio(s[j]) == Prio(s[k]);
    RemoveFirstIsFirst(s, s[k]);
  }

  /** `GetNext`: the scan keeps the first message of strictly greater severity,
      then `List.Remove` takes that message out of the staging list. */
  method GetNext(pre: seq<Message>) returns (m: Message, rest: seq<Message>)
    requires |pre| > 0
    ensures forall j :: 0 <= j < |pre| ==> Prio(pre[j]) <= Prio(m)
    ensures m == pre[FirstMax(pre)]
    ensures rest == RemoveAt(pre, FirstMax(pre))
  {
    var result := pre[0];
    ghost var k: nat := 0;
    var i := 0;
    while i < |pre|
      invariant k <= i <= |pre| && k < |pre|
      invariant result == pre[k]
      invariant forall j :: 0 <= j < i ==> Prio(pre[j]) <= Prio(result)
      invariant forall j :: 0 <= j < k ==> Prio(pre[j]) < Prio(result)
      invariant ScanMax(pre, i, k) == FirstMax(pre)
    {
      var cur := pre[i];
      if Prio(cur) > Prio(result) {
        result := cur;
        k := i;
      }
      i := i + 1;
    }
    m := result;
    rest := RemoveFirst(pre, result);
    FirstMaxUnique(pre, k, FirstMax(pre));
    RemoveFirstOfFirstMax(pre, k);
  }

  // ---------------------------------------------------------------------------
  // The drain pass
  // ---------------------------------------------------------------------------

  /** The batch one drain pass appends: `GetNext` repeated until staging is empty. */
  function Drain(s: seq<Message>): (batch: seq<Message>)
    decreases |s|
  {
    if |s| == 0 then []
    else
      var k := FirstMax(s);
      [s[k]] + Drain(RemoveAt(s, k))
  }

  /** Non-increasing severity from front to back. */
  predicate NonIncreasing(b: seq<Message>)
  {
    forall i, j :: 0 <= i < j < |b| ==> Prio(b[i]) >= Prio(b[j])
  }

  /** `a` lists the messages of each severity in the same order as `b` does. */
  predicate SameOrderPerSeverity(a: seq<Message>, b: seq<Message>)
  {
    forall v: Severity :: Band(a, Rank(v)) == Band(b, Rank(v))
  }

  /** No loss, no duplication: a drain batch is a permutation of the staging list. */
  lemma {:induction false} DrainPermutes(s: seq<Message>)
    ensures multiset(Drain(s)) == multiset(s)
    decreases |s|
  {
    if |s| > 0 {
      RemoveAtMultiset(s, FirstMax(s));
      DrainPermutes(RemoveAt(s, FirstMax(s)));
    }
  }

  /** Every message of `s` has priority at most `p`. */
  predicate AllAtMost(s: seq<Message>, p: nat)
  {
    forall j :: 0 <= j < |s| ==> Prio(s[j]) <= p
  }

  /** Draining never raises a severity above a bound the staging list respects. */
  lemma {:induction false} DrainBounded(s: seq<Message>, p: nat)
    requires AllAtMost(s, p)
    ensures AllAtMost(Drain(s), p)
    decreases |s|
  {
    if |s| > 0 {
      var k := FirstMax(s);
      RemoveFirstOfFirstMax(s, k);
      var rest := RemoveAt(s, k);
      assert Drain(s) == [s[k]] + Drain(rest);
      assert AllAtMost(rest, p) by {
        forall j | 0 <= j < |rest|
          ensures Prio(rest[j]) <= p
        {
          if j < k {
            assert rest[j] == s[j];
          } else {
            assert rest[j] == s[j + 1];
          }
        }
      }
      DrainBounded(rest, p);
      var d := Drain(s);
      forall j | 0 <= j < |d|
        ensures Prio(d[j]) <= p
      {
        if j > 0 {
          assert d[j] == Drain(rest)[j - 1];
        }
      }
    }
  }

  /** Putting a message no lower than any other in front keeps a sequence sorted. */
  lemma SortedCons(m: Message, t: seq<Message>)
    requires NonIncreasing(t)
    requires AllAtMost(t, Prio(m))
    ensures NonIncreasing([m] + t)
  {
    var d := [m] + t;
    forall i, j | 0 <= i < j < |d|
      ensures Prio(d[i]) >= Prio(d[j])
    {
      assert d[j] == t[j - 1];
      if i > 0 {
        assert d[i] == t[i - 1];
      }
    }
  }

  /** A drain batch is ordered by non-increasing severity. */
  lemma {:induction false} DrainSorted(s: seq<Message>)
    ensures NonIncreasing(Drain(s))
    decreases |s|
  {
    if |s| > 0 {
      var k := FirstMax(s);
      RemoveFirstOfFirstMax(s, k);
      var rest := RemoveAt(s, k);
      DrainSorted(rest);
      assert AllAtMost(rest, Prio(s[k])) by {
        forall j | 0 <= j < |rest|
          ensures Prio(rest[j]) <= Prio(s[k])
        {
          if j < k {
            assert rest[j] == s[j];
          } else {
            assert rest[j] == s[j + 1];
          }
        }
      }
      DrainBounded(rest, Prio(s[k]));
      SortedCons(s[k], Drain(rest));
      assert Drain(s) == [s[k]] + Drain(rest);
    }
  }

  /** Stability: within a batch, messages of equal severity keep their staging order. */
  lemma {:induction false} DrainStable(s: seq<Message>, r: nat)
    ensures Band(Drain(s), r) == Band(s, r)
    decreases |s|
  {
    if |s| > 0 {
      var k := FirstMax(s);
      var rest := RemoveAt(s, k);
      assert Drain(s) == [s[k]] + Drain(rest);
      DrainStable(rest, r);
      BandAppend([s[k]], Drain(rest), r);
      BandAfterSelect(s, k, r);
      assert Band([s[k]], r) == (if Prio(s[k]) == r then [s[k]] else []) + Band([], r);
    }
  }

  // ---------------------------------------------------------------------------
  // Reference definition: bucket the staging list by severity
  // ---------------------------------------------------------------------------

  /** The messages of rank `r`, in staging order; for `r == Rank(v)`, the messages
      of severity `v`. */
  function Band(s: seq<Message>, r: nat): seq<Message>
  {
    if |s| == 0 then []
    else (if Prio(s[0]) == r then [s[0]] else []) + Band(s[1..], r)
  }

  /** The band of a severity's rank holds only messages of that severity. */
  lemma {:induction false} BandOfSeverity(s: seq<Message>, v: Severity)
    ensures forall i :: 0 <= i < |Band(s, Rank(v))| ==> Band(s, Rank(v))[i].severity == v
    decreases |s|
  {
    if |s| > 0 {
      BandOfSeverity(s[1..], v);
      RankInjective(s[0].severity, v);
    }
  }

  /** All messages of rank `hi` down to rank 0, each rank in staging order. */
  function ByRank(s: seq<Message>, hi: int): seq<Message>
    decreases hi + 1
  {
    if hi < 0 then [] else Band(s, hi) + ByRank(s, hi - 1)
  }

  /** Fatal first, then Error, Warning, Info, Debug, Verbose (and any None last),
      each group in staging order. */
  function ByPriority(s: seq<Message>): seq<Message>
  {
    ByRank(s, 6)
  }

  lemma {:induction false} BandAppend(a: seq<Message>, b: seq<Message>, r: nat)
    ensures Band(a + b, r) == Band(a, r) + Band(b, r)
    decreases |a|
  {
    if |a| > 0 {
      assert (a + b)[1..] == a[1..] + b;
      BandAppend(a[1..], b, r);
    } else {
      assert a + b == b;
    }
  }

  lemma {:induction false} BandAbsent(s: seq<Message>, r: nat)
    requires forall j :: 0 <= j < |s| ==> Prio(s[j]) != r
    ensures Band(s, r) == []
    decreases |s|
  {
    if |s| > 0 {
      BandAbsent(s[1..], r);
    }
  }

  /** How removing the first maximum changes one band. */
  lemma BandAfterSelect(s: seq<Message>, k: nat, r: nat)
    requires IsFirstMax(s, k)
    ensures r == Prio(s[k]) ==> Band(s, r) == [s[k]] + Band(RemoveAt(s, k), r)
    ensures r < Prio(s[k]) ==> Band(s, r) == Band(RemoveAt(s, k), r)
    ensures r > Prio(s[k]) ==> Band(s, r) == [] && Band(RemoveAt(s, k), r) == []
  {
    var rest := RemoveAt(s, k);
    assert s == s[..k] + ([s[k]] + s[k + 1..]);
    BandAppend(s[..k], [s[k]] + s[k + 1..], r);
    BandAppend([s[k]], s[k + 1..], r);
    BandAppend(s[..k], s[k + 1..], r);
    assert Band([s[k]], r) == (if Prio(s[k]) == r then [s[k]] else []) + Band([], r);
    if r == Prio(s[k]) {
      forall j | 0 <= j < |s[..k]|
        ensures Prio(s[..k][j]) != r
      {
        assert Prio(s[j]) < Prio(s[k]);
      }
      BandAbsent(s[..k], r);
    }
    if r > Prio(s[k]) {
      forall j | 0 <= j < |s|
        ensures Prio(s[j]) != r
      {
        assert Prio(s[j]) <= Prio(s[k]);
      }
      BandAbsent(s, r);
      forall j | 0 <= j < |rest|
        ensures Prio(rest[j]) != r
      {
        if j < k { assert rest[j] == s[j]; } else { assert rest[j] == s[j + 1]; }
      }
      BandAbsent(rest, r);
    }
  }

  /** Below the selected message's rank, bucketing ignores its removal. */
  lemma {:induction false} ByRankBelowSelect(s: seq<Message>, k: nat, hi: int)
    requires IsFirstMax(s, k) && hi < Prio(s[k])
    ensures ByRank(s, hi) == ByRank(RemoveAt(s, k), hi)
    decreases hi + 1
  {
    if hi >= 0 {
      BandAfterSelect(s, k, hi);
      ByRankBelowSelect(s, k, hi - 1);
    }
  }

  /** From the selected message's rank upward, bucketing puts it first. */
  lemma {:induction false} ByRankFromSelect(s: seq<Message>, k: nat, hi: int)
    requires IsFirstMax(s, k) && hi >= Prio(s[k])
    ensures ByRank(s, hi) == [s[k]] + ByRank(RemoveAt(s, k), hi)
    decreases hi + 1
  {
    BandAfterSelect(s, k, hi);
    if hi == Prio(s[k]) {
      ByRankBelowSelect(s, k, hi - 1);
    } else {
      ByRankFromSelect(s, k, hi - 1);
    }
  }

  /** The drain batch is exactly the staging list bucketed by severity, highest
      first, each bucket in staging order. */
  lemma {:induction false} DrainIsByPriority(s: seq<Message>)
    ensures Drain(s) == ByPriority(s)
    decreases |s|
  {
    if |s| == 0 {
      assert ByRank(s, 6) == [] by {
        forall r: nat | r <= 6
          ensures Band(s, r) == []
        {
        }
      }
    } else {
      var k := FirstMax(s);
      RemoveFirstOfFirstMax(s, k);
      DrainIsByPriority(RemoveAt(s, k));
      ByRankFromSelect(s, k, 6);
    }
  }

  /** The drain loop of `PipeRun`: while staging is non-empty, enqueue `GetNext()`. */
  method DrainPass(b: Buffers) returns (r: Buffers)
    ensures r.staging == []
    ensures |r.output| == |b.output| + |b.staging|
    ensures r.output[..|b.output|] == b.output
    ensures multiset(r.output[|b.output|..]) == multiset(b.staging)
    ensures NonIncreasing(r.output[|b.output|..])
    ensures SameOrderPerSeverity(r.output[|b.output|..], b.staging)
  {
    var pre := b.staging;
    var out := b.output;
    while |pre| > 0
      invariant out + Drain(pre) == b.output + Drain(b.staging)
      decreases |pre|
    {
      var m, rest := GetNext(pre);
      out := out + [m];
      pre := rest;
    }
    r := Buffers(pre, out);
    PassOutcome(b, r.output);
  }

  /** What the output queue looks like once a whole batch has been appended. */
  lemma PassOutcome(b: Buffers, out: seq<Message>)
    requires out == b.output + Drain(b.staging)
    ensures |out| == |b.output| + |b.staging|
    ensures out[..|b.output|] == b.output
    ensures multiset(out[|b.output|..]) == multiset(b.staging)
    ensures NonIncreasing(out[|b.output|..])
    ensures SameOrderPerSeverity(out[|b.output|..], b.staging)
  {
    DrainBatchFacts(b.staging);
    assert out[|b.output|..] == Drain(b.staging);
  }

  /** Everything a caller learns about one drain batch. */
  lemma DrainBatchFacts(s: seq<Message>)
    ensures |Drain(s)| == |s|
    ensures multiset(Drain(s)) == multiset(s)
    ensures NonIncreasing(Drain(s))
    ensures SameOrderPerSeverity(Drain(s), s)
  {
    DrainLength(s);
    DrainPermutes(s);
    DrainSorted(s);
    forall v: Severity
      ensures Band(Drain(s), Rank(v)) == Band(s, Rank(v))
    {
      DrainStable(s, Rank(v));
    }
  }

  /** A batch is as long as the staging list it came from. */
  lemma {:induction false} DrainLength(s: seq<Message>)
    ensures |Drain(s)| == |s|
    decreases |s|
  {
    if |s| > 0 {
      DrainLength(RemoveAt(s, FirstMax(s)));
    }
  }

  /** The whole effect of one drain pass on the two buffers, as a value. */
  function DrainBuffers(b: Buffers): (r: Buffers)
    ensures r.staging == []
    ensures |r.output| == |b.output| + |b.staging|
    ensures r.output[..|b.output|] == b.output
  {
    DrainLength(b.staging);
    Buffers([], b.output + Drain(b.staging))
  }

  // ---------------------------------------------------------------------------
  // Popping from the output queue
  // ---------------------------------------------------------------------------

  /** The placeholder `PopLog` hands out when the output queue is empty. */
  const Sentinel := Message(None, 0, 0, "", "")

  /** `PopLog`: take the front of the output queue, or the sentinel when it is empty. */
  function PopLog(q: seq<Message>): (r: (Message, seq<Message>))
    ensures |q| == 0 ==> r.0.severity == None && r.1 == []
    ensures |q| > 0 ==> [r.0] + r.1 == q
  {
    if |q| == 0 then (Sentinel, []) else (q[0], q[1..])
  }
}

=== FILE: scenarios.dfy ===
/** The pipeline end to end: submission, a drain pass, and the console sink's update. */
module Scenarios {
  import opened LogMessages
  import LogPipeline
  import ConsoleLogger

  /** No message of `s` has severity `None`, the value that ends an update. */
  predicate AllReal(s: seq<Message>)
  {
    forall i :: 0 <= i < |s| ==> s[i].severity != None
  }

  /** Info, Fatal, Debug submitted in that order come out Fatal, Info, Debug. */
  lemma DrainOrdersBySeverity()
    ensures var a := Message(Info, 1, 1, "A", "x");
            var b := Message(Fatal, 1, 1, "B", "y");
            var c := Message(Debug, 1, 1, "C", "z");
            LogPipeline.Drain([a, b, c]) == [b, a, c]
  {
    var a := Message(Info, 1, 1, "A", "x");
    var b := Message(Fatal, 1, 1, "B", "y");
    var c := Message(Debug, 1, 1, "C", "z");
    var s := [a, b, c];
    assert LogPipeline.FirstMax(s) == 1 by {
      assert LogPipeline.IsFirstMax(s, 1);
      LogPipeline.FirstMaxUnique(s, 1, LogPipeline.FirstMax(s));
    }
    var s1 := LogPipeline.RemoveAt(s, 1);
    assert s1 == [a, c];
    assert LogPipeline.FirstMax(s1) == 0 by {
      assert LogPipeline.IsFirstMax(s1, 0);
      LogPipeline.FirstMaxUnique(s1, 0, LogPipeline.FirstMax(s1));
    }
    var s2 := LogPipeline.RemoveAt(s1, 0);
    assert s2 == [c];
    assert LogPipeline.FirstMax(s2) == 0;
    assert LogPipeline.RemoveAt(s2, 0) == [];
    assert LogPipeline.Drain(s2) == [c] + LogPipeline.Drain([]);
    assert LogPipeline.Drain(s1) == [a] + LogPipeline.Drain(s2);
    assert LogPipeline.Drain(s) == [b] + LogPipeline.Drain(s1);
  }

  /** A drained batch of real messages is entirely real. */
  lemma DrainKeepsReal(s: seq<Message>)
    requires AllReal(s)
    ensures AllReal(LogPipeline.Drain(s))
  {
    var d := LogPipeline.Drain(s);
    LogPipeline.DrainPermutes(s);
    forall i | 0 <= i < |d|
      ensures d[i].severity != None
    {
      assert d[i] in multiset(d);
      var j :| 0 <= j < |s| && s[j] == d[i];
    }
  }

  /** When every queued message is real, one update after a drain pass writes out the
      whole output queue, the already queued messages first and then the new batch,
      and nothing submitted is lost or duplicated. */
  lemma NothingLost(b: LogPipeline.Buffers, sink: ConsoleLogger.Sink, t: ConsoleLogger.ColorTable,
                    f: ConsoleLogger.Formatter, c: ConsoleLogger.Color)
    requires AllReal(b.output) && AllReal(b.staging)
    ensures var d := LogPipeline.DrainBuffers(b);
            var u := ConsoleLogger.Update(sink, t, f, c, d.output);
            && u.rendered == d.output
            && u.queue == []
            && ConsoleLogger.Flushed(u.out) == d.output
            && multiset(u.rendered) == multiset(b.output) + multiset(b.staging)
  {
    var d := LogPipeline.DrainBuffers(b);
    var batch := LogPipeline.Drain(b.staging);
    assert d.output == b.output + batch;
    DrainKeepsReal(b.staging);
    assert AllReal(d.output);
    var u := ConsoleLogger.Update(sink, t, f, c, d.output);
    assert u.rendered == d.output;
    ConsoleLogger.UpdateWrites(sink, t, f, c, d.output);
    LogPipeline.DrainPermutes(b.staging);
  }
}

=== FILE: stoppable_worker.dfy ===
/** `StopableThread`: a background context that calls a tick function until it is
    told to stop. The caller-side operations are transitions on a flag record; the
    background `Run` loop is an event trace driven by when a stop request lands. */
module StoppableWorker {
  import Wrappers

  /** The state of one worker. `threadUnstarted` tells whether the current thread
      object has never been started; `hasInit`/`hasTerm` whether the optional hooks
      were supplied. */
  datatype Worker = Worker(
    running: bool,
    stop: bool,
    disposed: bool,
    disposing: bool,
    cooldown: int,
    name: Wrappers.Option<string>,
    nameSet: bool,
    hasInit: bool,
    hasTerm: bool,
    threadUnstarted: bool)

  /** The configuration errors the worker raises. */
  datatype WorkerError = TickMissing | CooldownNotPositive

  /** What a worker does that can be observed.
      `Begin`: `running = true` and the "Initializing" log line;
      `Exit`: the "Terminating" log line; `End`: `running = false`;
      `NewThread`: a fresh thread object replaces a used one;
      `Launch`: the thread is started. */
  datatype Event =
    | WarnAlreadyRunning
    | WarnNotRunning
    | NewThread
    | Launch
    | Begin
    | Init
    | Tick
    | Exit
    | Term
    | End

  /** The configuration invariant: the cooldown is at least one millisecond. */
  predicate Valid(w: Worker)
  {
    w.cooldown >= 1
  }

  // ---------------------------------------------------------------------------
  // Configuration
  // ---------------------------------------------------------------------------

  /** The `TickCooldown` setter: reject values below 1, otherwise store exactly the value. */
  function SetTickCooldown(w: Worker, v: int): (r: Wrappers.Result<Worker, WorkerError>)
    ensures r.Success? <==> v >= 1
    ensures r.Failure? ==> r.error == CooldownNotPositive
    ensures r.Success? ==> Valid(r.value) && r.value.cooldown == v
    ensures r.Success? ==> r.value.(cooldown := w.cooldown) == w
  {
    if v < 1 then Wrappers.Failure(CooldownNotPositive)
    else Wrappers.Success(w.(cooldown := v))
  }

  /** Whether a name counts as set (`!string.IsNullOrEmpty(name)`). */
  predicate NameGiven(name: Wrappers.Option<string>)
  {
    name.Some? && name.value != ""
  }

  /** The constructor: the tick function is required; the cooldown goes through
      its setter with 10; the thread object is created but not started. */
  function New(hasInit: bool, hasTerm: bool, hasTick: bool, name: Wrappers.Option<string>): (r: Wrappers.Result<Worker, WorkerError>)
    ensures r.Success? <==> hasTick
    ensures r.Failure? ==> r.error == TickMissing
    ensures r.Success? ==> var w := r.value;
              && Valid(w) && w.cooldown == 10
              && (w.nameSet <==> NameGiven(name)) && w.name == name
              && w.hasInit == hasInit && w.hasTerm == hasTerm
              && !w.running && !w.stop && !w.disposed && !w.disposing && w.threadUnstarted
  {
    if !hasTick then Wrappers.Failure(TickMissing)
    else
      var w := Worker(false, false, false, false, 0, name, NameGiven(name), hasInit, hasTerm, true);
      SetTickCooldown(w, 10)
  }

  // ---------------------------------------------------------------------------
  // Caller-side transitions
  // ---------------------------------------------------------------------------

  /** `Start`: ignored with a warning while running; otherwise the thread is started,
      on a fresh thread object if the current one was started before. */
  function Start(w: Worker): (r: (Worker, seq<Event>))
    ensures |r.1| >= 1
    ensures w.running ==> r.0 == w && r.1 == [WarnAlreadyRunning]
    ensures !w.running ==> r.0 == w.(threadUnstarted := false)
    ensures !w.running ==> r.1[|r.1| - 1] == Launch && (NewThread in r.1 <==> !w.threadUnstarted)
  {
    if w.running then (w, [WarnAlreadyRunning])
    else if !w.threadUnstarted then (w, [NewThread, Launch])
    else (w.(threadUnstarted := false), [Launch])
  }

  /** `Stop`: ignored with a warning unless running; otherwise request the stop.
      Nothing ever clears the request. */
  function Stop(w: Worker): (r: (Worker, seq<Event>))
    ensures !w.running ==> r.0 == w && r.1 == [WarnNotRunning]
    ensures w.running ==> r.0 == w.(stop := true) && r.1 == []
  {
    if !w.running then (w, [WarnNotRunning])
    else (w.(stop := true), [])
  }

  /** The end of a run, once the loop has seen the stop request. */
  function Epilogue(w: Worker): (t: seq<Event>)
    ensures |t| >= 2 && t[0] == Exit && t[|t| - 1] == End
    ensures Term in t <==> w.hasTerm
    ensures Tick !in t && Init !in t && End !in t[..|t| - 1]
    ensures |t| == (if w.hasTerm then 3 else 2)
  {
    [Exit] + (if w.hasTerm then [Term] else []) + [End]
  }

  /** `StopWait`: request the stop, then wait until the worker no longer runs. A
      running worker's loop sees the request at its next check and winds down. */
  function StopWait(w: Worker): (r: (Worker, seq<Event>))
    ensures !r.0.running
    ensures w.running ==> r.0 == w.(stop := true, running := false) && r.1 == Epilogue(w)
    ensures !w.running ==> r.0 == w && r.1 == [WarnNotRunning]
  {
    var (w1, e1) := Stop(w);
    if w1.running then (w1.(running := false), e1 + Epilogue(w1))
    else (w1, e1)
  }

  /** `Dispose(bool)`: its body runs only when neither flag is set; `waiting`
      selects `StopWait` over `Stop`. */
  function Dispose(w: Worker, waiting: bool): (r: (Worker, seq<Event>))
    ensures w.disposed || w.disposing ==> r == (w, [])
    ensures !(w.disposed || w.disposing) ==> r.0.disposed && !r.0.disposing
    ensures !(w.disposed || w.disposing) && waiting ==> !r.0.running
    ensures !(w.disposed || w.disposing) && w.running ==> r.0.stop
    ensures !(w.disposed || w.disposing) && !waiting ==> r.0.running == w.running
    ensures !w.running ==> r.0.(disposed := w.disposed, disposing := w.disposing) == w
    ensures r.0.(running := w.running, stop := w.stop, disposed := w.disposed, disposing := w.disposing) == w
  {
    if !(w.disposed || w.disposing) then
      var w1 := w.(disposing := true);
      var (w2, e) := if waiting then StopWait(w1) else Stop(w1);
      (w2.(disposing := false, disposed := true), e)
    else (w, [])
  }

  /** The public `Dispose()`: disposal without waiting. */
  function DisposeNow(w: Worker): (r: (Worker, seq<Event>))
    ensures w.disposed || w.disposing ==> r == (w, [])
    ensures !(w.disposed || w.disposing) ==> r.0.disposed && !r.0.disposing && r.0.running == w.running && (w.running ==> r.0.stop)
    ensures !w.running ==> r.0.(disposed := w.disposed, disposing := w.disposing) == w
    ensures r.0.(running := w.running, stop := w.stop, disposed := w.disposed, disposing := w.disposing) == w
  {
    Dispose(w, false)
  }

  /** The finalizer: disposal that waits for the loop to exit. */
  function Finalize(w: Worker): (r: (Worker, seq<Event>))
    ensures w.disposed || w.disposing ==> r == (w, [])
    ensures !(w.disposed || w.disposing) ==> r.0.disposed && !r.0.disposing && !r.0.running && (w.running ==> r.0.stop)
    ensures !w.running ==> r.0.(disposed := w.disposed, disposing := w.disposing) == w
    ensures r.0.(running := w.running, stop := w.stop, disposed := w.disposed, disposing := w.disposing) == w
  {
    Dispose(w, true)
  }

  /** `StartNew`: construct, then start. */
  function StartNew(hasInit: bool, hasTerm: bool, hasTick: bool, name: Wrappers.Option<string>): (r: Wrappers.Result<(Worker, seq<Event>), WorkerError>)
    ensures r.Success? <==> hasTick
    ensures r.Success? ==> r.value.1 == [Launch] && !r.value.0.running && !r.value.0.stop && r.value.0.cooldown == 10
  {
    match New(hasInit, hasTerm, hasTick, name)
    case Failure(e) => Wrappers.Failure(e)
    case Success(w) => Wrappers.Success(Start(w))
  }

  /** The caller-side transitions. */
  datatype Call = DoStart | DoStop | DoStopWait | DoSetCooldown(v: int) | DoDispose | DoFinalize

  function Perform(w: Worker, c: Call): (r: Worker)
  {
    match c
    case DoStart => Start(w).0
    case DoStop => Stop(w).0
    case DoStopWait => StopWait(w).0
    case DoSetCooldown(v) =>
      (match SetTickCooldown(w, v)
       case Success(w1) => w1
       case Failure(_) => w)
    case DoDispose => DisposeNow(w).0
    case DoFinalize => Finalize(w).0
  }

  /** No call clears the stop request or a disposal flag, and the cooldown stays
      at least 1: a failing setter leaves the worker as it was. */
  lemma PerformMonotone(w: Worker, c: Call)
    requires Valid(w)
    ensures var r := Perform(w, c);
            && Valid(r)
            && (w.stop ==> r.stop)
            && (w.disposed ==> r.disposed)
            && (r.disposing ==> w.disposing)
  {
  }

  /** The same along any sequence of calls. */
  lemma {:induction false} PerformAllMonotone(w: Worker, cs: seq<Call>)
    requires Valid(w)
    ensures var r := PerformAll(w, cs);
            && Valid(r)
            && (w.stop ==> r.stop)
            && (w.disposed ==> r.disposed)
    decreases |cs|
  {
    if |cs| > 0 {
      PerformMonotone(w, cs[0]);
      PerformAllMonotone(Perform(w, cs[0]), cs[1..]);
    }
  }

  function PerformAll(w: Worker, cs: seq<Call>): Worker
    decreases |cs|
  {
    if |cs| == 0 then w else PerformAll(Perform(w, cs[0]), cs[1..])
  }

  /** A second disposal, of either kind, does nothing. */
  lemma DisposeOnce(w: Worker, first: bool, second: bool)
    ensures var (w1, _) := Dispose(w, first);
            w.disposed || w.disposing || Dispose(w1, second) == (w1, [])
  {
  }

  // ---------------------------------------------------------------------------
  // The background loop
  // ---------------------------------------------------------------------------

  /** `n` ticks in a row. */
  function Ticks(n: nat): (t: seq<Event>)
    ensures |t| == n && forall i :: 0 <= i < n ==> t[i] == Tick
  {
    seq(n, _ => Tick)
  }

  /** The `while (!stop)` loop. `stop0` is the request as the loop starts and
      `landed[i]` whether a request had landed by the loop's i-th check. Returns
      how many ticks ran and whether the loop exited (it has not if `landed`
      ends before a check sees a request). */
  function Loop(stop0: bool, landed: seq<bool>): (r: (nat, bool))
    ensures r.0 <= |landed|
    ensures forall i :: 0 <= i < r.0 ==> !stop0 && !landed[i]
    ensures r.1 ==> r.0 < |landed| && (stop0 || landed[r.0])
    ensures !r.1 ==> r.0 == |landed|
    decreases |landed|
  {
    if |landed| == 0 then (0, false)
    else if stop0 || landed[0] then (0, true)
    else
      var (k, exited) := Loop(stop0, landed[1..]);
      (k + 1, exited)
  }

  /** One execution of `Run` on a launched thread. */
  datatype RunResult = RunResult(worker: Worker, trace: seq<Event>)

  /** `Run`: `running = true`, the init hook, ticks until a check sees the stop
      request, then the terminate hook and `running = false`. */
  function Run(w: Worker, landed: seq<bool>): (r: RunResult)
  {
    var (k, exited) := Loop(w.stop, landed);
    var prologue := [Begin] + (if w.hasInit then [Init] else []);
    if exited then
      RunResult(w.(running := false, stop := true), prologue + Ticks(k) + Epilogue(w))
    else
      RunResult(w.(running := true), prologue + Ticks(k))
  }

  /** `running` is set at index `i` of a run's trace: `Begin` came before and `End` did not. */
  predicate RunningAt(t: seq<Event>, i: int)
    requires 0 <= i <= |t|
  {
    Begin in t[..i] && End !in t[..i]
  }

  /** Number of ticks in a trace. */
  function TickCount(t: seq<Event>): nat
  {
    if |t| == 0 then 0 else (if t[0] == Tick then 1 else 0) + TickCount(t[1..])
  }

  lemma {:induction false} TickCountAppend(a: seq<Event>, b: seq<Event>)
    ensures TickCount(a + b) == TickCount(a) + TickCount(b)
    decreases |a|
  {
    if |a| == 0 {
      assert a + b == b;
    } else {
      assert (a + b)[1..] == a[1..] + b;
      TickCountAppend(a[1..], b);
    }
  }

  lemma {:induction false} TickCountTicks(n: nat)
    ensures TickCount(Ticks(n)) == n
    decreases n
  {
    if n > 0 {
      assert Ticks(n)[1..] == Ticks(n - 1);
      TickCountTicks(n - 1);
    }
  }

  lemma {:induction false} TickCountNoTick(t: seq<Event>)
    requires Tick !in t
    ensures TickCount(t) == 0
    decreases |t|
  {
    if |t| > 0 {
      TickCountNoTick(t[1..]);
    }
  }

  /** The events of a run before the loop exits. */
  function RunBody(w: Worker, k: nat): (t: seq<Event>)
    ensures |t| >= 1 && t[0] == Begin && End !in t
  {
    [Begin] + (if w.hasInit then [Init] else []) + Ticks(k)
  }

  /** A run is its body, followed by the epilogue once the loop has exited. */
  lemma RunSplits(w: Worker, landed: seq<bool>)
    ensures var (k, exited) := Loop(w.stop, landed);
            Run(w, landed).trace == RunBody(w, k) + (if exited then Epilogue(w) else [])
            && (Run(w, landed).worker.running <==> !exited)
  {
  }

  /** Init and every tick happen while `running` is set: `Begin` precedes them
      and `End` does not. */
  lemma RunningDuringWork(w: Worker, landed: seq<bool>, i: nat)
    requires i < |Run(w, landed).trace|
    requires Run(w, landed).trace[i] == Init || Run(w, landed).trace[i] == Tick
    ensures RunningAt(Run(w, landed).trace, i)
  {
    RunSplits(w, landed);
    var (k, exited) := Loop(w.stop, landed);
    var t := Run(w, landed).trace;
    var body := RunBody(w, k);
    var ep := if exited then Epilogue(w) else [];
    assert t == body + ep;
    assert i < |body|;
    assert t[..i] == body[..i];
    assert i >= 1;
    assert t[..i][0] == Begin;
  }

  /** `running` is cleared only at the very end of a run, right after the terminate
      hook if there is one, and a run leaves the worker not running exactly when
      it has reached that point. */
  lemma EndOnlyAfterTerm(w: Worker, landed: seq<bool>)
    ensures var t := Run(w, landed).trace;
            && (End in t ==> t[|t| - 1] == End && End !in t[..|t| - 1])
            && (End in t && w.hasTerm ==> t[|t| - 2] == Term)
            && (Run(w, landed).worker.running <==> End !in t)
  {
    RunSplits(w, landed);
    var (k, exited) := Loop(w.stop, landed);
    var t := Run(w, landed).trace;
    var body := RunBody(w, k);
    if exited {
      var ep := Epilogue(w);
      assert t == body + ep;
      assert t[..|t| - 1] == body + ep[..|ep| - 1];
      if w.hasTerm {
        assert ep == [Exit, Term, End];
      }
    } else {
      assert t == body;
    }
  }

  /** Ticks stop with the first check that sees the request: a run that starts
      with the request set does not tick at all, and once a request has landed by
      check i, at most i ticks run. */
  lemma RunStopsTicking(w: Worker, landed: seq<bool>)
    ensures w.stop ==> TickCount(Run(w, landed).trace) == 0
    ensures forall i :: 0 <= i < |landed| && landed[i] ==> TickCount(Run(w, landed).trace) <= i
    ensures TickCount(Run(w, landed).trace) == Loop(w.stop, landed).0
  {
    RunSplits(w, landed);
    var (k, exited) := Loop(w.stop, landed);
    var prologue := [Begin] + (if w.hasInit then [Init] else []);
    assert RunBody(w, k) == prologue + Ticks(k);
    TickCountNoTick(prologue);
    TickCountTicks(k);
    TickCountAppend(prologue, Ticks(k));
    if exited {
      TickCountNoTick(Epilogue(w));
      TickCountAppend(prologue + Ticks(k), Epilogue(w));
    }
  }

  /** Because `stop` is never cleared, a worker that was stopped while running and
      is started again runs its hooks but never ticks. */
  lemma RestartNeverTicks(w: Worker, landed: seq<bool>)
    requires w.running
    ensures var w1 := StopWait(w).0;
            var w2 := Start(w1).0;
            !w1.running && w2.stop && TickCount(Run(w2, landed).trace) == 0
  {
    RunStopsTicking(Start(StopWait(w).0).0, landed);
  }
}

=== FILE: wrappers.dfy ===
/** Optional values and success-or-error outcomes used throughout the model. */
module Wrappers {

  /** A value that may be absent (a C# reference that may be null). */
  datatype Option<+T> = None | Some(value: T)

  /** The outcome of an operation that may raise: a value or the error it raised. */
  datatype Result<+R, +E> = Success(value: R) | Failure(error: E)
}
